=== FILE: README.md ===
# KhsCI GitHub integration, modelled in Dafny

KhsCI is a PHP continuous-integration service. This project models four
parts of it that talk to GitHub:

- **The webhook handler** (`GitHubWebhook`, `src/KhsCI/Service/Webhooks/GitHub.php`).
  A delivery passes a signature gate. It is then dispatched on its
  `X-Github-Event` name to one handler method. Each handler writes at most
  one `builds` row, deletes the rows of a branch, or edits the repository
  list of a GitHub App installation.
- **The ingestion queue** (`WebhookQueue`, `src/KhsCI/Service/Webhooks/Webhooks.php`).
  Accepted deliveries are pushed onto the Redis list `webhooks`. A consumer
  pops them in arrival order, pushes a failed item back with `rollback`,
  and records outcomes on `webhooks_success` and `webhooks_error`.
- **The check-run client** (`CheckRuns`, `src/KhsCI/Service/Checks/Run.php`).
  It builds the requests for GitHub's Checks API: the `array_filter`ed
  JSON body of `create` and `update`, the listing URLs with their query
  strings, and the annotation, image and action records.
- **The pull-request client** (`PullRequests`, `src/KhsCI/Service/PullRequest/GitHubClient.php`).
  It builds the URLs from `implode('/', …)`, the `create`/`update` body,
  the `$is_update` flag that turns `create` into a PATCH, and the `merge`
  body. It maps HTTP status codes to results and exceptions for
  `isMerged` and `merge`.

Shared modules model the PHP behaviour these depend on:

- `PhpString`: `explode`, `implode`, `explode` with limit 2, and integer-to-string conversion.
- `PhpArray`: decoded values, falsiness, `array_filter`, and key lookup.
- `Http`: requests, responses and `http_build_query`.
- `Signature`: the `X-Hub-Signature` check.
- `Common`: `Option`, `Result` and `Fault`, where a fault is an exception's code and message.

The outside world is passed in, never modelled:

- The database is an immutable `Db` value: the `builds` rows in insertion
  order with the next id, the installation rows, and the repository full
  names by provider id.
- Redis lists are sequences whose index 0 is the left end.
- HTTP calls become a request value plus the response the caller supplies.
- `hash_hmac`, `md5`, `Date::parse`, `Date::Int2ISO` and `urlencode` are
  function-valued parameters.
- Environment variables and the clock (`time()`) are fields of an `Env`
  or `QueueEnv` value.

Both PHP behaviours and the source's defects are kept as written. The
model follows PHP 8 with `strict_types`. Engine errors (`TypeError`,
`ArgumentCountError`, `ValueError`, a call to an undefined method) become
faults with code 0, which is what `__invoke` rethrows; their messages
paraphrase PHP's.
Where a line of the source is evidently a mistake, the model keeps the
as-written behaviour, proves the discrepancy, and gives a corrected
member beside it (see Findings).

## Model

| member | source | states |
|---|---|---|
| Signature.AcceptedIff | src/KhsCI/Service/Webhooks/GitHub.php:43-49 | A header `algo=digest` passes the gate exactly when the HMAC of the body under the secret is `digest`. |
| Signature.Gate | src/KhsCI/Service/Webhooks/GitHub.php:43-58 | The gate passes exactly when the header is present and accepted. It fails with code 0 exactly when the header is missing or names an algorithm `hash_hmac` does not know. |
| Signature.GateKnownAlgo | src/KhsCI/Service/Webhooks/GitHub.php:45-58 | With a known algorithm, `algo=digest` passes on a matching HMAC and is otherwise rejected with 402. |
| Signature.RejectedWithoutSeparator | src/KhsCI/Service/Webhooks/GitHub.php:43-49 | A header without `=` never passes. The whole header is taken as the algorithm: a known one leads to the 402 rejection, an unknown one to the engine error. |
| GitHubWebhook.Invoke | src/KhsCI/Service/Webhooks/GitHub.php:36-58 | A delivery the gate passes is dispatched on the event name, `undefined` when that header is missing, with the secret `CI_WEBHOOKS_TOKEN`, else `md5('khsci')`. A rejected one throws code 402 and a failed one throws the gate's engine error; both write nothing. |
| GitHubWebhook.InvokeGuarded | src/KhsCI/Service/Webhooks/GitHub.php:36-58 | Only a present, matching signature reaches a handler. Every other delivery throws and writes nothing, and a missing header throws code 0. |
| GitHubWebhook.Dispatch | src/KhsCI/Service/Webhooks/GitHub.php:51-55 | An event name that names no method throws an engine error with code 0 and changes nothing. |
| GitHubWebhook.HandlerOfIgnoresCase | src/KhsCI/Service/Webhooks/GitHub.php:51 | PHP looks up `$this->$type` without regard to ASCII case, so `PUSH` reaches `push` and `Pull_Request` reaches `pull_request`. |
| GitHubWebhook.Run | src/KhsCI/Service/Webhooks/GitHub.php:51-55 | Every reachable method other than `delete` appends at most one build row, with the next id, or leaves the build table and the id counter as they were. |
| GitHubWebhook.InvokePreservesValid | src/KhsCI/Service/Webhooks/GitHub.php:36-58 | Whatever is delivered, build ids stay below the next id and increase with insertion order. |
| GitHubWebhook.RunPreservesValid | src/KhsCI/Service/Webhooks/GitHub.php:51-55 | Each handler, including the branch deletion, keeps build ids fresh and increasing. |
| GitHubWebhook.Ping | src/KhsCI/Service/Webhooks/GitHub.php:67-87 | `ping` appends one `github` row of type `ping` with the raw body, the repository id and the delivery time, and no build status. It returns the new id. |
| GitHubWebhook.Push | src/KhsCI/Service/Webhooks/GitHub.php:100-171 | Only a ref whose second segment is `tags` goes to `tag`. Otherwise a push without a head commit returns 0 and writes nothing, and any other push is exactly `PushBranch`. Its new row is stamped `github`/`push` with the raw body and carries the parsed commit time. |
| GitHubWebhook.PushBranch | src/KhsCI/Service/Webhooks/GitHub.php:115-171 | A branch push appends one pending `github` row of type `push` with the raw body. It holds the ref, its third segment as branch, the `after` commit, the compare URL, the committer, the parsed commit time and the repository id. With a known repository name it returns the report of the new row's id and the pending status for `after` on that repository. With an unknown name it throws code 0 after the row is written. |
| GitHubWebhook.PushStatus | src/KhsCI/Service/Webhooks/GitHub.php:154-170 | The reported status is pending for the pushed commit. Its target URL ends with `/builds/<id>` and its context ends with `/push`. |
| GitHubWebhook.PushStatusNames | src/KhsCI/Service/Webhooks/GitHub.php:162 | A full name `owner/repo` splits into the status's username `owner` and repository `repo`. |
| GitHubWebhook.PushOfTagRef | src/KhsCI/Service/Webhooks/GitHub.php:108-112 | A push of `refs/tags/<t>` is exactly `tag` called with the first `/`-segment of `<t>`. |
| GitHubWebhook.Ref2BranchKeepsThirdSegment | src/KhsCI/Service/Webhooks/GitHub.php:449-454 | `refs/heads/<b>` names branch `<b>` only when `<b>` has no `/`. In general it names the first segment of `<b>`, and it is never a tag ref. |
| GitHubWebhook.AuditRow | src/KhsCI/Service/Webhooks/GitHub.php:180-252 | `status`, `issues` and `issue_comment` append one `github` row holding only the event name and the raw body. Each returns the new id. |
| GitHubWebhook.PullRequest | src/KhsCI/Service/Webhooks/GitHub.php:266-303 | One pending `github` row of type `pull_request` with the raw body. It holds the base branch, the head sha, the title, the author login, the PR number, the base repository id and the action, with no ref or tag. It returns the new id. |
| GitHubWebhook.Tag | src/KhsCI/Service/Webhooks/GitHub.php:313-356 | With a `base_ref`, one pending `github` row of type `tag` with the raw body. It holds the tag, the ref, the branch of `base_ref` and the repository id. With a head commit it also holds the commit id, message and parsed time, and the author. A null `base_ref` fails the string parameter before anything is written. |
| GitHubWebhook.Delete | src/KhsCI/Service/Webhooks/GitHub.php:427-442 | For a branch, the table becomes `KeepUnmatched` of itself. Every GitHub row of that branch and repository is removed, every other row stays exactly as often as it was there, and the count removed is returned. Anything else returns 0 and changes nothing. |
| GitHubWebhook.KeepUnmatched | src/KhsCI/Service/Webhooks/GitHub.php:436-438 | A row survives the `DELETE` exactly when it does not match git type, branch and repository id. |
| GitHubWebhook.KeepUnmatchedCounts | src/KhsCI/Service/Webhooks/GitHub.php:436-438 | A matching row occurs zero times afterwards, and any other row occurs as often as before. |
| GitHubWebhook.KeepUnmatchedSplits | src/KhsCI/Service/Webhooks/GitHub.php:436-438 | The survivors of a concatenation are the survivors of each part in turn, so the remaining rows keep their order. |
| GitHubWebhook.KeepUnmatchedValid | src/KhsCI/Service/Webhooks/GitHub.php:436-438 | Deleting rows keeps ids fresh and increasing. |
| GitHubWebhook.Installation | src/KhsCI/Service/Webhooks/GitHub.php:485-505 | `created` runs `installation_action_created` on the repository list. Any other action calls `installation_action_deleted` with swapped arguments and throws code 0. The build table is never touched. |
| GitHubWebhook.InstallationCreated | src/KhsCI/Service/Webhooks/GitHub.php:516-542 | As written, every repository takes the INSERT branch: one new row per repository, holding the installation, that repository's id and the sender, in list order. Existing rows are untouched, and it always returns 0. |
| GitHubWebhook.InstallationCreatedRowCount | src/KhsCI/Service/Webhooks/GitHub.php:516-542 | As written, an installation created with `n` repositories gains `n` rows. |
| GitHubWebhook.AppendIdsEffect | src/KhsCI/Service/Webhooks/GitHub.php:532-537 | The UPDATE branch, which the counter never reaches: each repository's id is appended to every row of that installation and to no other row. |
| GitHubWebhook.InstallationCreatedIntended | src/KhsCI/Service/Webhooks/GitHub.php:518-537 | With the counter advanced, a non-empty list adds one row with the sender whose array is every listed id in order. Earlier rows of that installation gain the later ids, and no other installation changes. |
| GitHubWebhook.InstallationCreatedIntendedRowCount | src/KhsCI/Service/Webhooks/GitHub.php:518-537 | As intended, an installation gains one row however many repositories it has. |
| GitHubWebhook.InstallationRepositories | src/KhsCI/Service/Webhooks/GitHub.php:572-603 | Only the first repository of `repositories_<action>` is handled. `added` appends `{id, full_name}` to each row of that installation, changes nothing else in those rows, and returns the number of such rows as the affected count. Any other action runs the mis-bound removal, which throws the database fault and changes nothing. A missing or empty list returns null. |
| GitHubWebhook.ChangedRowsAppendEntry | src/KhsCI/Service/Webhooks/GitHub.php:586-601 | A JSON append changes every row it targets, so the affected count equals the number of that installation's rows. |
| GitHubWebhook.InstallationRepositoriesIntended | src/KhsCI/Service/Webhooks/GitHub.php:594-601 | As intended, any action other than `added` removes the first repository's id from that installation's rows. Builds and other installations are untouched. |
| GitHubWebhook.RemoveEntry | src/KhsCI/Service/Webhooks/GitHub.php:594 | The corrected removal: the installation's rows lose exactly the entries with that id, and other rows are unchanged. |
| GitHubWebhook.RemoveEntryIdempotent | src/KhsCI/Service/Webhooks/GitHub.php:594 | Removing a repository twice has the effect of removing it once. |
| GitHubWebhook.RemovalBindingMismatch | src/KhsCI/Service/Webhooks/GitHub.php:594-601 | As written, the removal binds three values to two placeholders, and the value in the `installation_id` position is the full name. |
| GitHubWebhook.RemovalAsWrittenKeepsEntry | src/KhsCI/Service/Webhooks/GitHub.php:594-601 | For `removed` with a repository an installation lists, the as-written handler throws and the entry stays, while the intended one drops it. |
| WebhookQueue.StartGitHubServer | src/KhsCI/Service/Webhooks/Webhooks.php:37-62 | With debug on, or a present signature that matches under the argument secret, else `CI_WEBHOOKS_TOKEN`, else `md5('khsci')`, `[git_type, event, body]` is prepended to `webhooks`, and the list's new length is returned. Otherwise nothing changes: a mismatch throws 402, and a missing header or unknown algorithm throws code 0. The other lists never change. |
| WebhookQueue.StartGitHubAppServer | src/KhsCI/Service/Webhooks/Webhooks.php:71-76 | The object's git type becomes `github_app` for good, and then the server behaves as `startGitHubServer` under that type. It succeeds exactly when the gate passes. On success the triple `github_app`/event/body is pushed on the left of the inbox, the inbox's new length is returned, and the success and error lists are kept. On failure nothing in Redis changes. It throws 402 exactly when the gate rejects, and code 0 on a missing header. |
| WebhookQueue.AppDeliveryDrainsLast | src/KhsCI/Service/Webhooks/Webhooks.php:71-76 | An accepted app delivery is popped after every item already queued. |
| WebhookQueue.StartCodingServer | src/KhsCI/Service/Webhooks/Webhooks.php:83-86 | Returns an empty array and enqueues nothing. |
| WebhookQueue.StartGiteeServer | src/KhsCI/Service/Webhooks/Webhooks.php:93-96 | Returns an empty array and enqueues nothing. |
| WebhookQueue.PushCache | src/KhsCI/Service/Webhooks/Webhooks.php:108-111 | The triple is prepended to `webhooks` and the new length is returned. The other lists are unchanged. |
| WebhookQueue.GetCache | src/KhsCI/Service/Webhooks/Webhooks.php:120-123 | Pops the right end of `webhooks`. It yields nothing, and leaves the server unchanged, exactly when the list is empty. The rest of the list is left in order. |
| WebhookQueue.Rollback | src/KhsCI/Service/Webhooks/Webhooks.php:134-137 | The item goes back on the same end `pushCache` uses, and the inbox's new length is returned. |
| WebhookQueue.PushSuccessCache | src/KhsCI/Service/Webhooks/Webhooks.php:148-151 | Only `webhooks_success` changes, gaining the item at its left end, and its new length is returned. |
| WebhookQueue.GetSuccessCache | src/KhsCI/Service/Webhooks/Webhooks.php:156-159 | A stub: returns an empty array and changes nothing. |
| WebhookQueue.PushErrorCache | src/KhsCI/Service/Webhooks/Webhooks.php:170-173 | Only `webhooks_error` changes, gaining the item at its left end, and its new length is returned. |
| WebhookQueue.GetErrorCache | src/KhsCI/Service/Webhooks/Webhooks.php:178-181 | A stub: returns an empty array and changes nothing. |
| WebhookQueue.FifoOrder | src/KhsCI/Service/Webhooks/Webhooks.php:108-123 | Deliveries are popped in the order they were pushed, after everything already queued. |
| WebhookQueue.DrainAfterPush | src/KhsCI/Service/Webhooks/Webhooks.php:108-123 | An item pushed on the left comes out after every item already in the list. |
| WebhookQueue.GetCacheTakesOldest | src/KhsCI/Service/Webhooks/Webhooks.php:120-123 | `getCache` returns the oldest queued item and keeps the rest in drain order. |
| WebhookQueue.RollbackGoesLast | src/KhsCI/Service/Webhooks/Webhooks.php:134-137 | A rolled-back item is popped only after every item already queued. |
| WebhookQueue.RollbackScenario | src/KhsCI/Service/Webhooks/Webhooks.php:108-137 | Push 1, 2, 3, pop twice, then roll back the first: the pops yield 1 then 2, and the list then yields 3 then 1. |
| CheckRuns.RunsPathSegments | src/KhsCI/Service/Checks/Run.php:80 | Below the API root, the check-runs path splits into `repos`, owner, repository and `check-runs`. |
| CheckRuns.RunUrlExtendsRunsUrl | src/KhsCI/Service/Checks/Run.php:229 | The URL `update` writes to is the collection `create` posts to, followed by `/<id>`. |
| CheckRuns.RunEntriesDistinct | src/KhsCI/Service/Checks/Run.php:82-100 | The payload literal and its `output` literal have distinct keys. |
| CheckRuns.PayloadKeepsNonFalsy | src/KhsCI/Service/Checks/Run.php:82-100 | The body holds a key exactly when the literal held it with a non-falsy value, and then holds that same value. Its keys stay distinct. |
| CheckRuns.PayloadDropsEmptyStrings | src/KhsCI/Service/Checks/Run.php:82-100 | `conclusion` is sent exactly when given as a string other than `''` and `'0'`. A required string such as `name` equal to `''` or `'0'` is silently dropped. |
| CheckRuns.OutputPresence | src/KhsCI/Service/Checks/Run.php:92-98 | `output` is absent exactly when title, summary, text, annotations and images are all falsy. When present it is the filtered `output` array. |
| CheckRuns.Create | src/KhsCI/Service/Checks/Run.php:63-113 | POST of the filtered body to the collection with the antiope preview `Accept`. The response body is returned as it came, and it is logged exactly when the status is not 201. |
| CheckRuns.Update | src/KhsCI/Service/Checks/Run.php:211-262 | PATCH of the same body to `/check-runs/<id>`, logged exactly when the status is not 200. |
| CheckRuns.CreateUpdateAgree | src/KhsCI/Service/Checks/Run.php:211-262 | For the same fields, `create` and `update` send the same body, and `update` targets `create`'s URL plus `/<id>`. |
| CheckRuns.ListQueryKeepsAll | src/KhsCI/Service/Checks/Run.php:287-293 | None of the three listing arguments is null, so the query string has all three encoded pairs in order. |
| CheckRuns.ListSpecificRef | src/KhsCI/Service/Checks/Run.php:279-296 | A GET of `/commits/<ref>/check-runs?check_name=…&status=…&filter=…` with the preview `Accept` and no body. |
| CheckRuns.ListCheckSuite | src/KhsCI/Service/Checks/Run.php:313-330 | As written: a GET with the preview `Accept` and no body of `/check-suites/<id>/check-rus?check_name=…&status=…&filter=…`. |
| CheckRuns.CheckSuitePathMisspelt | src/KhsCI/Service/Checks/Run.php:319 | As written, the suite listing's path ends in `/check-rus`, not `/check-runs`. |
| CheckRuns.ListCheckSuiteIntended | src/KhsCI/Service/Checks/Run.php:313-330 | Corrected: the same GET of `/check-suites/<id>/check-runs?check_name=…&status=…&filter=…`. |
| CheckRuns.CheckSuitePathIntended | src/KhsCI/Service/Checks/Run.php:319 | The corrected suite listing's path ends in `/check-runs`. |
| CheckRuns.GetSingle | src/KhsCI/Service/Checks/Run.php:342-347 | A GET, with the preview `Accept` and no body, of the single run's URL, the one `update` writes to. |
| CheckRuns.ListAnnotations | src/KhsCI/Service/Checks/Run.php:359-364 | A GET, with the preview `Accept` and no body, of the single run's URL followed by `/annotations`. |
| CheckRuns.ReadsTargetUpdatedRun | src/KhsCI/Service/Checks/Run.php:342-364 | `getSingle` reads the URL `update` writes, and `listAnnotations` is that URL plus `/annotations`. |
| CheckRuns.AnnotationRecordReads | src/KhsCI/Service/Checks/Run.php:138-147 | The eight-key record reads back, key by key, as the annotation it was built from. |
| CheckRuns.CreateAnnotation | src/KhsCI/Service/Checks/Run.php:129-148 | As written: eight keys holding every argument, with missing optional strings as null. The file URL is stored under `blog_href`. |
| CheckRuns.AnnotationLacksBlobHref | src/KhsCI/Service/Checks/Run.php:140 | As written, the annotation has no `blob_href`, so it does not read as an API annotation. |
| CheckRuns.CreateAnnotationIntended | src/KhsCI/Service/Checks/Run.php:129-148 | The corrected record reads back as an annotation with the file URL under `blob_href`. |
| CheckRuns.CreateImage | src/KhsCI/Service/Checks/Run.php:157-166 | The three-key record reads back as the image it was built from. |
| CheckRuns.CreateAction | src/KhsCI/Service/Checks/Run.php:177-186 | The three-key record reads back as the action it was built from. |
| CheckRuns.CreateActionDefaults | src/KhsCI/Service/Checks/Run.php:177-179 | With no arguments, the action is a `Fix` button, `fix_errors`, "Allow us to fix these errors for you". |
| PullRequests.RepoUrlText | src/KhsCI/Service/PullRequest/GitHubClient.php:48 | `api_url . implode('/', ['/repos', u, r, …])` reads as `/repos/u/r` followed by `/part` for each further part. |
| PullRequests.RepoUrlExtends | src/KhsCI/Service/PullRequest/GitHubClient.php:165-170 | Adding one more part adds exactly `/part`. |
| PullRequests.PullsUrlText | src/KhsCI/Service/PullRequest/GitHubClient.php:48 | The collection URL is `/repos/<owner>/<repo>/pulls`. |
| PullRequests.PullUrlBelowPulls | src/KhsCI/Service/PullRequest/GitHubClient.php:72-77 | One pull request's URL is the collection's plus `/<number>`. |
| PullRequests.List | src/KhsCI/Service/PullRequest/GitHubClient.php:40-59 | A GET without body or `Accept` of the collection URL, `?`, and the `http_build_query` of state, head, base, sort and direction in that order. |
| PullRequests.ListWithoutFilters | src/KhsCI/Service/PullRequest/GitHubClient.php:50-58 | With no filter given, `http_build_query` drops every null, so the URL ends in a bare `?`. |
| PullRequests.ListWithAllFilters | src/KhsCI/Service/PullRequest/GitHubClient.php:50-58 | With all five filters given, the query is the five encoded `key=value` pairs joined by `&`, in source order. |
| PullRequests.GetPull | src/KhsCI/Service/PullRequest/GitHubClient.php:72-77 | A GET of the collection URL plus `/<number>`. |
| PullRequests.ListCommits | src/KhsCI/Service/PullRequest/GitHubClient.php:165-170 | A GET of the pull request's URL plus `/commits`. |
| PullRequests.ListFiles | src/KhsCI/Service/PullRequest/GitHubClient.php:183-188 | A GET of the files URL as written. |
| PullRequests.ListFilesUrlDoubledSlashes | src/KhsCI/Service/PullRequest/GitHubClient.php:185 | As written, the files URL reads `…//pulls/<n>//files`, two characters longer than the intended URL. |
| PullRequests.ListFilesUrlIntended | src/KhsCI/Service/PullRequest/GitHubClient.php:185 | The corrected files URL is the pull request's URL plus `/files`, as with `listCommits`. |
| PullRequests.CreatePayload | src/KhsCI/Service/PullRequest/GitHubClient.php:104-117 | With `from_issue` 0 the keys are title, body, head, base, maintainer_can_modify, and title and body hold the arguments (a missing body as null). Otherwise the first two are shifted off. Either way head, base and maintainer_can_modify hold the arguments. |
| PullRequests.CreateFromIssueLosesIssue | src/KhsCI/Service/PullRequest/GitHubClient.php:112-117 | As written, a PR opened from an issue sends neither the issue number nor a title. |
| PullRequests.CreatePayloadIntended | src/KhsCI/Service/PullRequest/GitHubClient.php:104-117 | The corrected body is the as-written one, with `issue` first when `from_issue` is non-zero. |
| PullRequests.CreatePayloadIntendedNamesIssue | src/KhsCI/Service/PullRequest/GitHubClient.php:112-117 | The corrected body has `issue` exactly when one is given, and `title` exactly when none is. |
| PullRequests.CreateUrlDoubledSlash | src/KhsCI/Service/PullRequest/GitHubClient.php:102 | As written, `create` targets `…/<repo>//pulls`, with an empty path segment the collection URL lacks. |
| PullRequests.CreateUrlIntended | src/KhsCI/Service/PullRequest/GitHubClient.php:102 | The corrected create URL is the API root followed by `/repos/<owner>/<repo>/pulls`, the collection `list` reads. |
| PullRequests.Create | src/KhsCI/Service/PullRequest/GitHubClient.php:93-124 | PATCH when `$is_update` is set, else POST, of the as-written body to the as-written URL. The response body is returned unchanged. The body defaults to null and `maintainer_can_modify` to true. |
| PullRequests.CreateDefaults | src/KhsCI/Service/PullRequest/GitHubClient.php:99-100 | Without the two trailing arguments, the request carries a null `body` and `maintainer_can_modify` true. |
| PullRequests.Update | src/KhsCI/Service/PullRequest/GitHubClient.php:140-154 | Always a PATCH of `create`'s body to `create`'s URL, and the flag is cleared afterwards. |
| PullRequests.UpdateThenCreate | src/KhsCI/Service/PullRequest/GitHubClient.php:140-154 | `update` differs from `create` only in the verb, and a `create` after it posts again. |
| PullRequests.MergeStatusUrl | src/KhsCI/Service/PullRequest/GitHubClient.php:203 | The merge-status URL is the pull request's URL plus `/merge`. |
| PullRequests.IsMerged | src/KhsCI/Service/PullRequest/GitHubClient.php:201-216 | A GET of the merge-status URL that yields `true` exactly on 204. A 404 throws code 404 and anything else throws 500, so it never yields `false`. |
| PullRequests.MergeMethod | src/KhsCI/Service/PullRequest/GitHubClient.php:239-249 | 1, 2 and 3 become a string name. Any other int is sent unchanged. |
| PullRequests.MergeMethodRoundTrip | src/KhsCI/Service/PullRequest/GitHubClient.php:239-249 | The sent value reads back to the caller's int, so no two methods are sent alike. |
| PullRequests.MergePayload | src/KhsCI/Service/PullRequest/GitHubClient.php:253-258 | Four keys in order. The commit title and sha pass through, a null commit message is sent as `''`, and `merge_method` holds the mapped value. |
| PullRequests.MergeUrlDoubledSlash | src/KhsCI/Service/PullRequest/GitHubClient.php:251 | As written, `merge` PUTs to `…//pulls/<n>/merge`, which is not the URL `isMerged` reads. |
| PullRequests.MergeUrlIntended | src/KhsCI/Service/PullRequest/GitHubClient.php:251 | The corrected merge URL is the API root followed by `/repos/<owner>/<repo>/pulls/<n>/merge`, the merge-status URL. |
| PullRequests.Merge | src/KhsCI/Service/PullRequest/GitHubClient.php:231-277 | A PUT of the body that yields `true` exactly on 200 and throws on every other status, with the status as code. 405 and 409 carry their fixed messages, and any other status carries the response body. |
| PullRequests.MergeDefaultMethod | src/KhsCI/Service/PullRequest/GitHubClient.php:237-241 | Without a merge method, the request asks for a plain `merge`. |

## Left out

- Reading the request (headers, `php://input`) and `json_decode`. A delivery arrives already decoded as a `Payload`, and a missing payload property other than the modelled optional ones is not represented.
- The database, Redis, cURL and logging libraries. Their effects are modelled as values: rows, lists, the request sent, a `logged` flag. Their failures are not modelled.
- Concurrency between webhook processes and consumers of the Redis list.
- `Date::parse`, `Date::Int2ISO`, `hash_hmac`, `md5` and `urlencode` are inputs, not definitions. `json_encode` of a `Triple` item is kept abstract.
- The values of `CI::BUILD_STATUS_PENDING` and `CI::GITHUB_STATUS_PENDING` are not part of this model. Both are taken to be `pending`.
- The empty handler methods in `Webhooks.php` (lines 183-263) and the empty methods of `GitHub.php` (`release`, `create`, `member`, `team_add`, `integration_*`, `check_suite`, `check_run`). The dispatcher models them as returning null.
- GitHubWebhook.InstallationCreated: each INSERT fills `repo` with `json_array_append(repo,'$',?)`, where `repo` reads the column's default. The model stores the one-element array `[id]`; with a NULL default MySQL would store NULL. The table's schema is not part of this model.
- GitHubWebhook.InstallationRepositories: the fault `DB::update` throws for the mis-bound removal is an input (`Env.bindFault`), because the database layer is not part of this model. What `__invoke`'s rethrow makes of a non-integer PDO code is not modelled.
- GitHubWebhook.Tag: with a null `head_commit`, the model writes the row with NULL commit columns and no event time. That assumes `Date::parse(null)` returns null; `Date` is not part of this model, and a `string` parameter there would throw before the INSERT.
- The `$header` property of the pull-request client (a `symmetra-preview` `Accept`) is declared but never sent, so the model's requests carry no `Accept`.
- `update` in the pull-request client: when `create` throws, `$is_update` stays set. The model has no exceptions on the HTTP path.
- PullRequests.IsMerged: `$pr_num` is untyped in the source. The model takes an int, so a string id is not modelled.
- GitHubWebhook.Run: states only the at-most-one-row effect. What each handler writes is stated by that handler's member (`Ping`, `Push`, `Tag`, …), which `Run` calls unchanged.
- GitHubWebhook.Dispatch: states only the unknown-name case. A known name runs `Run` on its handler, as `HandlerOf` maps names case-insensitively.
- `json_encode` failures on invalid UTF-8, because strings are modelled as sequences of characters.

## Findings

| source | as written | input that shows it | evidently intended | confidence | as-written member | corrected member |
|---|---|---|---|---|---|---|
| src/KhsCI/Service/Checks/Run.php:140 | the annotation's file URL is stored under `blog_href` | any annotation: the record has no `blob_href` key | `blob_href`, the key GitHub's annotation object uses | high, not executed | CheckRuns.AnnotationLacksBlobHref | CheckRuns.CreateAnnotationIntended |
| src/KhsCI/Service/Checks/Run.php:319 | the suite listing's last path segment is `check-rus` | any suite id: the path ends in `/check-rus` | `/check-runs` | high, not executed | CheckRuns.CheckSuitePathMisspelt | CheckRuns.CheckSuitePathIntended |
| src/KhsCI/Service/PullRequest/GitHubClient.php:102 | the create URL's last part is `/pulls`, so implode gives `//pulls` | owner `o`, repo `r`: path `/repos/o/r//pulls` | `/repos/o/r/pulls`, the URL `list` uses | high, not executed | PullRequests.CreateUrlDoubledSlash | PullRequests.CreateUrlIntended |
| src/KhsCI/Service/PullRequest/GitHubClient.php:185 | the parts `/pulls` and `/files` carry their own slash | owner `o`, repo `r`, PR 1: `/repos/o/r//pulls/1//files` | `/repos/o/r/pulls/1/files` | high, not executed | PullRequests.ListFilesUrlDoubledSlashes | PullRequests.ListFilesUrlIntended |
| src/KhsCI/Service/PullRequest/GitHubClient.php:251 | the merge URL's parts include `/pulls`, so the path has `//pulls` | owner `o`, repo `r`, PR 1: `/repos/o/r//pulls/1/merge` | `/repos/o/r/pulls/1/merge`, the URL `isMerged` reads | high, not executed | PullRequests.MergeUrlDoubledSlash | PullRequests.MergeUrlIntended |
| src/KhsCI/Service/PullRequest/GitHubClient.php:112-117 | with a non-zero `$from_issue`, title and body are shifted off and the issue number is written to an unrelated `$array` | `from_issue` 5: the body has neither `issue` nor `title` | the body names `issue` 5 in place of title and body | high, not executed | PullRequests.CreateFromIssueLosesIssue | PullRequests.CreatePayloadIntendedNamesIssue |
| src/KhsCI/Service/Webhooks/GitHub.php:594-601 | the removal statement has two placeholders but is bound to `[$id, $full_name, $installation_id]`, so `DB::update` rejects it and nothing is removed | `removed` with repository id 7, name `o/r`, installation 9 listing 7: the handler throws and 7 stays listed | bind `[<path of id 7 in repo>, 9]` and drop entry 7 from installation 9 | medium, not executed | GitHubWebhook.RemovalAsWrittenKeepsEntry | GitHubWebhook.InstallationRepositoriesIntended |
| src/KhsCI/Service/Webhooks/GitHub.php:518-537 | `$i` starts at 0 and is never incremented, so `0 === $i` holds for every repository and the UPDATE branch is dead | `created` with repositories 7 and 8 for installation 9: two new rows for 9, holding `[7]` and `[8]` | one new row for 9 holding `[7, 8]` | high, not executed | GitHubWebhook.InstallationCreatedRowCount | GitHubWebhook.InstallationCreatedIntended |

=== FILE: check_runs.dfy ===
/**
 * The check-run client: request URLs, the sparse JSON payload of
 * `create`/`update` (top level and the nested `output` both passed through
 * `array_filter`), and the annotation, image and action records a caller
 * puts into that payload. The HTTP client is replaced by the request each
 * call makes and the response it is handed.
 */
module CheckRuns {
  import opened Common
  import opened PhpString
  import opened PhpArray
  import Http

  /** The preview media type every check-run request asks for. */
  const Accept := "application/vnd.github.antiope-preview+json"

  /** The field arguments `create` and `update` share. */
  datatype RunFields = RunFields(
    name: string,
    branch: string,
    commitId: string,
    detailsUrl: string,
    externalId: string,
    status: string,
    startedAt: Option<int>,
    completedAt: Option<int>,
    conclusion: Option<string>,
    title: Option<string>,
    summary: Option<string>,
    text: Option<string>,
    annotations: Option<seq<Value>>,
    images: Option<seq<Value>>,
    actions: Option<seq<Value>>)

  /** What `create`/`update` did: the request sent, the body returned, and whether a debug line was logged. */
  datatype Call = Call(request: Http.HttpRequest, result: string, logged: bool)

  // -----------------------------------------------------------------------
  // URLs

  function RunsUrl(apiUrl: string, fullName: string): string
  {
    apiUrl + "/repos/" + fullName + "/check-runs"
  }

  function RunUrl(apiUrl: string, fullName: string, checkRunId: string): string
  {
    apiUrl + "/repos/" + fullName + "/check-runs/" + checkRunId
  }

  /** The single check run's URL extends the collection's by `/<id>`. */
  lemma RunUrlExtendsRunsUrl(apiUrl: string, fullName: string, checkRunId: string)
    ensures RunUrl(apiUrl, fullName, checkRunId) == RunsUrl(apiUrl, fullName) + "/" + checkRunId
  {
  }

  /**
   * Below the API root, the collection path reads as the segments
   * `repos`, owner, repository, `check-runs`.
   */
  lemma RunsPathSegments(owner: string, repo: string)
    requires '/' !in owner && '/' !in repo
    ensures Explode(RunsUrl("", owner + "/" + repo), '/') == ["", "repos", owner, repo, "check-runs"]
  {
    var parts := ["", "repos", owner, repo, "check-runs"];
    assert Implode("/", parts) == RunsUrl("", owner + "/" + repo) by {
      assert Implode("/", parts[3..]) == repo + "/" + "check-runs";
      assert Implode("/", parts[2..]) == owner + "/" + (repo + "/" + "check-runs");
    }
    ExplodeImplode(parts, '/');
  }

  // -----------------------------------------------------------------------
  // The payload

  /** The `output` array literal, before `array_filter`. */
  function OutputEntries(f: RunFields): seq<Field>
  {
    [ Field("title", OptStr(f.title)),
      Field("summary", OptStr(f.summary)),
      Field("text", OptStr(f.text)),
      Field("annotations", OptList(f.annotations)),
      Field("images", OptList(f.images)) ]
  }

  /** The top-level array literal, before `array_filter`; `int2Iso` is `Date::Int2ISO`. */
  function RunEntries(f: RunFields, int2Iso: Option<int> -> Value): seq<Field>
  {
    [ Field("name", Str(f.name)),
      Field("head_branch", Str(f.branch)),
      Field("head_sha", Str(f.commitId)),
      Field("details_url", Str(f.detailsUrl)),
      Field("external_id", Str(f.externalId)),
      Field("status", Str(f.status)),
      Field("started_at", int2Iso(f.startedAt)),
      Field("completed_at", int2Iso(f.completedAt)),
      Field("conclusion", OptStr(f.conclusion)),
      Field("output", Obj(ArrayFilter(OutputEntries(f)))),
      Field("actions", OptList(f.actions)) ]
  }

  /** The request body of `create` and of `update`. */
  function Payload(f: RunFields, int2Iso: Option<int> -> Value): seq<Field>
  {
    ArrayFilter(RunEntries(f, int2Iso))
  }

  lemma OutputEntriesDistinct(f: RunFields)
    ensures DistinctKeys(OutputEntries(f))
  {
    KeysDifferEarlyDistinct(OutputEntries(f));
  }

  lemma RunEntriesDistinct(f: RunFields, int2Iso: Option<int> -> Value)
    ensures DistinctKeys(RunEntries(f, int2Iso))
    ensures DistinctKeys(OutputEntries(f))
  {
    var e := RunEntries(f, int2Iso);
    assert KeysDifferEarly(e);
    KeysDifferEarlyDistinct(e);
    OutputEntriesDistinct(f);
  }

  /**
   * The payload holds a key exactly when the argument array held it with a
   * non-falsy value, and then with that same value.
   */
  lemma PayloadKeepsNonFalsy(f: RunFields, int2Iso: Option<int> -> Value, key: string)
    ensures Get(Payload(f, int2Iso), key) ==
      (if Get(RunEntries(f, int2Iso), key).Some? && !Falsy(Get(RunEntries(f, int2Iso), key).value)
       then Get(RunEntries(f, int2Iso), key) else None)
    ensures DistinctKeys(Payload(f, int2Iso))
  {
    RunEntriesDistinct(f, int2Iso);
    GetArrayFilter(RunEntries(f, int2Iso), key);
    ArrayFilterDistinct(RunEntries(f, int2Iso));
  }

  /**
   * Two instances: `conclusion` is sent only when given as a string other
   * than `''` and `'0'`, and likewise a required field such as `name` is
   * dropped when it is `''` or `'0'`.
   */
  lemma PayloadDropsEmptyStrings(f: RunFields, int2Iso: Option<int> -> Value)
    ensures Get(Payload(f, int2Iso), "conclusion").Some? <==>
      f.conclusion.Some? && f.conclusion.value != "" && f.conclusion.value != "0"
    ensures Get(Payload(f, int2Iso), "name") ==
      (if f.name == "" || f.name == "0" then None else Some(Str(f.name)))
  {
    var e := RunEntries(f, int2Iso);
    RunEntriesDistinct(f, int2Iso);
    GetAt(e, 0);
    GetAt(e, 8);
    PayloadKeepsNonFalsy(f, int2Iso, "conclusion");
    PayloadKeepsNonFalsy(f, int2Iso, "name");
  }

  /**
   * `output` is absent exactly when title, summary, text, annotations and
   * images are all falsy; when present it is the filtered `output` array.
   */
  lemma OutputPresence(f: RunFields, int2Iso: Option<int> -> Value)
    ensures Get(Payload(f, int2Iso), "output").None? <==>
      && Falsy(OptStr(f.title)) && Falsy(OptStr(f.summary)) && Falsy(OptStr(f.text))
      && Falsy(OptList(f.annotations)) && Falsy(OptList(f.images))
    ensures Get(Payload(f, int2Iso), "output").Some? ==>
      Get(Payload(f, int2Iso), "output").value == Obj(ArrayFilter(OutputEntries(f)))
  {
    RunEntriesDistinct(f, int2Iso);
    GetAt(RunEntries(f, int2Iso), 9);
    PayloadKeepsNonFalsy(f, int2Iso, "output");
    ArrayFilterEmpty(OutputEntries(f));
    var out := OutputEntries(f);
    assert (forall i :: 0 <= i < |out| ==> Falsy(out[i].value)) <==>
      Falsy(out[0].value) && Falsy(out[1].value) && Falsy(out[2].value) && Falsy(out[3].value) && Falsy(out[4].value);
  }

  // -----------------------------------------------------------------------
  // create and update

  /**
   * `create`: POST the payload to the repository's check-runs collection.
   * A status other than 201 is only logged; the response body is returned
   * as it came.
   */
  function Create(apiUrl: string, fullName: string, f: RunFields, int2Iso: Option<int> -> Value, resp: Http.HttpResponse): (c: Call)
    ensures c.request.verb == Http.Post && c.request.url == RunsUrl(apiUrl, fullName)
    ensures c.request.body == Some(Obj(Payload(f, int2Iso))) && c.request.accept == Some(Accept)
    ensures c.result == resp.body
    ensures c.logged <==> resp.code != 201
  {
    Call(Http.HttpRequest(Http.Post, apiUrl + "/repos/" + fullName + "/check-runs", Some(Obj(Payload(f, int2Iso))), Some(Accept)),
         resp.body, resp.code != 201)
  }

  /**
   * `update`: PATCH the same payload to `/check-runs/<id>`. A status other
   * than 200 is only logged; the response body is returned as it came.
   */
  function Update(apiUrl: string, fullName: string, checkRunId: string, f: RunFields, int2Iso: Option<int> -> Value, resp: Http.HttpResponse): (c: Call)
    ensures c.request.verb == Http.Patch && c.request.url == RunUrl(apiUrl, fullName, checkRunId)
    ensures c.request.body == Some(Obj(Payload(f, int2Iso))) && c.request.accept == Some(Accept)
    ensures c.result == resp.body
    ensures c.logged <==> resp.code != 200
  {
    Call(Http.HttpRequest(Http.Patch, apiUrl + "/repos/" + fullName + "/check-runs/" + checkRunId, Some(Obj(Payload(f, int2Iso))), Some(Accept)),
         resp.body, resp.code != 200)
  }

  /**
   * `create` and `update` send the same body for the same field arguments,
   * and `update` targets the created collection's URL extended by `/<id>`.
   */
  lemma CreateUpdateAgree(apiUrl: string, fullName: string, checkRunId: string, f: RunFields,
                          int2Iso: Option<int> -> Value, r1: Http.HttpResponse, r2: Http.HttpResponse)
    ensures Create(apiUrl, fullName, f, int2Iso, r1).request.body == Update(apiUrl, fullName, checkRunId, f, int2Iso, r2).request.body
    ensures Update(apiUrl, fullName, checkRunId, f, int2Iso, r2).request.url ==
      Create(apiUrl, fullName, f, int2Iso, r1).request.url + "/" + checkRunId
  {
  }

  // -----------------------------------------------------------------------
  // Listing and reading

  /** The `http_build_query` arguments of both listing calls. */
  function ListQuery(checkName: string, status: string, filter: string): seq<(string, Option<string>)>
  {
    [("check_name", Some(checkName)), ("status", Some(status)), ("filter", Some(filter))]
  }

  /** The three query pairs, each encoded, in the order check name, status, filter. */
  function ListQueryText(checkName: string, status: string, filter: string, encode: string -> string): string
  {
    Implode("&", [encode("check_name") + "=" + encode(checkName),
                  encode("status") + "=" + encode(status),
                  encode("filter") + "=" + encode(filter)])
  }

  /** None of the listing arguments is null, so the query keeps all three pairs. */
  lemma ListQueryKeepsAll(checkName: string, status: string, filter: string, encode: string -> string)
    ensures Http.BuildQuery(ListQuery(checkName, status, filter), encode) == ListQueryText(checkName, status, filter, encode)
  {
    var pairs := ListQuery(checkName, status, filter);
    Http.QueryPairsAllPresent(pairs, encode);
    assert Http.QueryPairs(pairs, encode) ==
      [encode("check_name") + "=" + encode(checkName),
       encode("status") + "=" + encode(status),
       encode("filter") + "=" + encode(filter)];
  }

  /** `listSpecificRef`: GET the check runs of a commit, branch or tag, filtered by the query. */
  function ListSpecificRef(apiUrl: string, fullName: string, ref: string, checkName: string, status: string,
                           filter: string, encode: string -> string): (req: Http.HttpRequest)
    ensures req.verb == Http.Get && req.body.None? && req.accept == Some(Accept)
    ensures req.url == apiUrl + "/repos/" + fullName + "/commits/" + ref + "/check-runs?" +
      ListQueryText(checkName, status, filter, encode)
  {
    var url := apiUrl + "/repos/" + fullName + "/commits/" + ref + "/check-runs";
    ListQueryKeepsAll(checkName, status, filter, encode);
    Http.HttpRequest(Http.Get, url + "?" + Http.BuildQuery(ListQuery(checkName, status, filter), encode), None, Some(Accept))
  }

  /** `listCheckSuite` as written: the last path segment is `check-rus`. */
  function ListCheckSuite(apiUrl: string, fullName: string, id: int, checkName: string, status: string,
                          filter: string, encode: string -> string): (req: Http.HttpRequest)
    ensures req.verb == Http.Get && req.body.None? && req.accept == Some(Accept)
    ensures req.url == apiUrl + "/repos/" + fullName + "/check-suites/" + IntToString(id) + "/check-rus" + "?" +
      ListQueryText(checkName, status, filter, encode)
  {
    var url := apiUrl + "/repos/" + fullName + "/check-suites/" + IntToString(id) + "/check-rus";
    ListQueryKeepsAll(checkName, status, filter, encode);
    Http.HttpRequest(Http.Get, url + "?" + Http.BuildQuery(ListQuery(checkName, status, filter), encode), None, Some(Accept))
  }

  /** The suite listing with the path GitHub serves, `check-runs`. */
  function ListCheckSuiteIntended(apiUrl: string, fullName: string, id: int, checkName: string, status: string,
                                  filter: string, encode: string -> string): (req: Http.HttpRequest)
    ensures req.verb == Http.Get && req.body.None? && req.accept == Some(Accept)
    ensures req.url == apiUrl + "/repos/" + fullName + "/check-suites/" + IntToString(id) + "/check-runs" + "?" +
      ListQueryText(checkName, status, filter, encode)
  {
    var url := apiUrl + "/repos/" + fullName + "/check-suites/" + IntToString(id) + "/check-runs";
    ListQueryKeepsAll(checkName, status, filter, encode);
    Http.HttpRequest(Http.Get, url + "?" + Http.BuildQuery(ListQuery(checkName, status, filter), encode), None, Some(Accept))
  }

  /** The path (everything before `?`) of a request URL. */
  function PathOf(url: string): string
  {
    SplitFirst(url, '?')[0]
  }

  /** As written, the suite listing's path does not end in `/check-runs`. */
  lemma CheckSuitePathMisspelt(apiUrl: string, fullName: string, id: int, checkName: string, status: string,
                               filter: string, encode: string -> string)
    requires '?' !in apiUrl + fullName
    ensures !EndsWith(PathOf(ListCheckSuite(apiUrl, fullName, id, checkName, status, filter, encode).url), "/check-runs")
    ensures EndsWith(PathOf(ListCheckSuite(apiUrl, fullName, id, checkName, status, filter, encode).url), "/check-rus")
  {
    var stem := apiUrl + "/repos/" + fullName + "/check-suites/" + IntToString(id);
    var base := stem + "/check-rus";
    QuestionFreePath(apiUrl, fullName, id, "/check-rus",
      Http.BuildQuery(ListQuery(checkName, status, filter), encode));
    assert base[|base| - 2] == 'u';
    assert base[|base| - 10..] == "/check-rus";
  }

  /** The corrected suite listing's path ends in `/check-runs`, like the other listings. */
  lemma CheckSuitePathIntended(apiUrl: string, fullName: string, id: int, checkName: string, status: string,
                               filter: string, encode: string -> string)
    requires '?' !in apiUrl + fullName
    ensures EndsWith(PathOf(ListCheckSuiteIntended(apiUrl, fullName, id, checkName, status, filter, encode).url), "/check-runs")
  {
    QuestionFreePath(apiUrl, fullName, id, "/check-runs",
      Http.BuildQuery(ListQuery(checkName, status, filter), encode));
  }

  lemma QuestionFreePath(apiUrl: string, fullName: string, id: int, last: string, query: string)
    requires '?' !in apiUrl + fullName
    requires '?' !in last
    ensures PathOf(apiUrl + "/repos/" + fullName + "/check-suites/" + IntToString(id) + last + "?" + query)
      == apiUrl + "/repos/" + fullName + "/check-suites/" + IntToString(id) + last
  {
    var base := apiUrl + "/repos/" + fullName + "/check-suites/" + IntToString(id) + last;
    assert '?' !in IntToString(id) by {
      var digits := NatToString(if id < 0 then -id else id);
      assert forall i :: 0 <= i < |digits| ==> digits[i] != '?';
    }
    assert '?' !in base by {
      assert forall c :: c in base ==> c in apiUrl + fullName || c in "/repos/" || c in "/check-suites/" || c in IntToString(id) || c in last;
    }
    assert apiUrl + "/repos/" + fullName + "/check-suites/" + IntToString(id) + last + "?" + query == base + ['?'] + query;
    SplitFirstAt(base, query, '?');
  }

  /** `getSingle`: GET one check run. */
  function GetSingle(apiUrl: string, fullName: string, checkRunId: int): (req: Http.HttpRequest)
    ensures req.verb == Http.Get && req.body.None? && req.accept == Some(Accept)
    ensures req.url == RunUrl(apiUrl, fullName, IntToString(checkRunId))
  {
    Http.HttpRequest(Http.Get, apiUrl + "/repos/" + fullName + "/check-runs/" + IntToString(checkRunId), None, Some(Accept))
  }

  /** `listAnnotations`: GET the annotations of one check run. */
  function ListAnnotations(apiUrl: string, fullName: string, checkRunId: int): (req: Http.HttpRequest)
    ensures req.verb == Http.Get && req.body.None? && req.accept == Some(Accept)
    ensures req.url == RunUrl(apiUrl, fullName, IntToString(checkRunId)) + "/annotations"
  {
    Http.HttpRequest(Http.Get, apiUrl + "/repos/" + fullName + "/check-runs/" + IntToString(checkRunId) + "/annotations", None, Some(Accept))
  }

  /**
   * `getSingle` reads the run `update` writes, and `listAnnotations` lists
   * below it.
   */
  lemma ReadsTargetUpdatedRun(apiUrl: string, fullName: string, checkRunId: int, f: RunFields,
                              int2Iso: Option<int> -> Value, resp: Http.HttpResponse)
    ensures GetSingle(apiUrl, fullName, checkRunId).url ==
      Update(apiUrl, fullName, IntToString(checkRunId), f, int2Iso, resp).request.url
    ensures ListAnnotations(apiUrl, fullName, checkRunId).url ==
      GetSingle(apiUrl, fullName, checkRunId).url + "/annotations"
  {
  }

  // -----------------------------------------------------------------------
  // Annotation, image and action records

  /** An annotation as the API defines it. */
  datatype Annotation = Annotation(
    filename: string, blobHref: string, startLine: int, endLine: int,
    warningLevel: string, message: string, title: Option<string>, rawDetails: Option<string>)

  function GetStr(fields: seq<Field>, key: string): Option<string>
  {
    match Get(fields, key)
    case Some(Str(s)) => Some(s)
    case _ => None
  }

  function GetInt(fields: seq<Field>, key: string): Option<int>
  {
    match Get(fields, key)
    case Some(Int(i)) => Some(i)
    case _ => None
  }

  /** A nullable string entry: present as a string or as `null`. */
  function GetNullableStr(fields: seq<Field>, key: string): Option<Option<string>>
  {
    match Get(fields, key)
    case Some(Str(s)) => Some(Some(s))
    case Some(Null) => Some(None)
    case _ => None
  }

  /** Read an annotation back, taking its file URL from the key `urlKey`. */
  function ReadAnnotation(v: Value, urlKey: string): Option<Annotation>
  {
    if !v.Obj? then None
    else
      var fs := v.fields;
      var filename := GetStr(fs, "filename");
      var href := GetStr(fs, urlKey);
      var start := GetInt(fs, "start_line");
      var end := GetInt(fs, "end_line");
      var level := GetStr(fs, "warning_level");
      var message := GetStr(fs, "message");
      var title := GetNullableStr(fs, "title");
      var details := GetNullableStr(fs, "raw_details");
      if filename.Some? && href.Some? && start.Some? && end.Some? && level.Some? && message.Some?
         && title.Some? && details.Some?
      then Some(Annotation(filename.value, href.value, start.value, end.value, level.value, message.value,
                           title.value, details.value))
      else None
  }

  /** The annotation record with its file-URL key named `urlKey`. */
  function AnnotationRecord(urlKey: string, filename: string, href: string, startLine: int, endLine: int,
                            warningLevel: string, message: string, title: Option<string>, rawDetails: Option<string>): Value
  {
    Obj([ Field("filename", Str(filename)),
          Field(urlKey, Str(href)),
          Field("start_line", Int(startLine)),
          Field("end_line", Int(endLine)),
          Field("warning_level", Str(warningLevel)),
          Field("message", Str(message)),
          Field("title", OptStr(title)),
          Field("raw_details", OptStr(rawDetails)) ])
  }

  /** The record's eight keys are distinct under either spelling of the URL key. */
  lemma AnnotationRecordDistinct(urlKey: string, filename: string, href: string, startLine: int, endLine: int,
                                 warningLevel: string, message: string, title: Option<string>, rawDetails: Option<string>)
    requires urlKey == "blog_href" || urlKey == "blob_href"
    ensures DistinctKeys(AnnotationRecord(urlKey, filename, href, startLine, endLine, warningLevel, message, title, rawDetails).fields)
  {
    var fs := AnnotationRecord(urlKey, filename, href, startLine, endLine, warningLevel, message, title, rawDetails).fields;
    assert |fs[1].key| == 9 && fs[1].key[0] == 'b' && fs[1].key[1] == 'l';
    assert KeysDifferEarly(fs) by {
      forall i, j | 0 <= i < j < |fs|
        ensures || |fs[i].key| != |fs[j].key|
                || (|fs[i].key| > 1 && (fs[i].key[0] != fs[j].key[0] || fs[i].key[1] != fs[j].key[1]))
      {
      }
    }
    KeysDifferEarlyDistinct(fs);
  }

  /** Under either spelling of the URL key, the record reads back as the annotation it was built from. */
  lemma AnnotationRecordReads(urlKey: string, filename: string, href: string, startLine: int, endLine: int,
                              warningLevel: string, message: string, title: Option<string>, rawDetails: Option<string>)
    requires urlKey == "blog_href" || urlKey == "blob_href"
    ensures ReadAnnotation(AnnotationRecord(urlKey, filename, href, startLine, endLine, warningLevel, message, title, rawDetails), urlKey)
      == Some(Annotation(filename, href, startLine, endLine, warningLevel, message, title, rawDetails))
  {
    var fs := AnnotationRecord(urlKey, filename, href, startLine, endLine, warningLevel, message, title, rawDetails).fields;
    AnnotationRecordDistinct(urlKey, filename, href, startLine, endLine, warningLevel, message, title, rawDetails);
    assert GetStr(fs, "filename") == Some(filename) by { GetAt(fs, 0); }
    assert GetStr(fs, urlKey) == Some(href) by { GetAt(fs, 1); }
    assert GetInt(fs, "start_line") == Some(startLine) by { GetAt(fs, 2); }
    assert GetInt(fs, "end_line") == Some(endLine) by { GetAt(fs, 3); }
    assert GetStr(fs, "warning_level") == Some(warningLevel) by { GetAt(fs, 4); }
    assert GetStr(fs, "message") == Some(message) by { GetAt(fs, 5); }
    assert GetNullableStr(fs, "title") == Some(title) by { GetAt(fs, 6); }
    assert GetNullableStr(fs, "raw_details") == Some(rawDetails) by { GetAt(fs, 7); }
  }

  /**
   * `createAnnotation` as written: eight keys, every argument verbatim (a
   * missing `title` or `raw_details` as `null`), with the file URL under
   * the key `blog_href`.
   */
  function CreateAnnotation(filename: string, blogHref: string, startLine: int, endLine: int,
                            warningLevel: string, message: string, title: Option<string>, rawDetails: Option<string>): (v: Value)
    ensures v.Obj? && |v.fields| == 8
    ensures ReadAnnotation(v, "blog_href") ==
      Some(Annotation(filename, blogHref, startLine, endLine, warningLevel, message, title, rawDetails))
  {
    AnnotationRecordReads("blog_href", filename, blogHref, startLine, endLine, warningLevel, message, title, rawDetails);
    AnnotationRecord("blog_href", filename, blogHref, startLine, endLine, warningLevel, message, title, rawDetails)
  }

  /** As written, the annotation has no `blob_href`, the key the API reads the file URL from. */
  lemma AnnotationLacksBlobHref(filename: string, blogHref: string, startLine: int, endLine: int,
                                warningLevel: string, message: string, title: Option<string>, rawDetails: Option<string>)
    ensures Get(CreateAnnotation(filename, blogHref, startLine, endLine, warningLevel, message, title, rawDetails).fields, "blob_href").None?
    ensures ReadAnnotation(CreateAnnotation(filename, blogHref, startLine, endLine, warningLevel, message, title, rawDetails), "blob_href").None?
  {
    var fs := CreateAnnotation(filename, blogHref, startLine, endLine, warningLevel, message, title, rawDetails).fields;
    forall i | 0 <= i < |fs| ensures fs[i].key != "blob_href" {
      if |fs[i].key| == 9 {
        assert fs[i].key[3] == 'g';
      }
    }
    GetAbsent(fs, "blob_href");
  }

  /** The annotation with the file URL under `blob_href`. */
  function CreateAnnotationIntended(filename: string, blobHref: string, startLine: int, endLine: int,
                                    warningLevel: string, message: string, title: Option<string>, rawDetails: Option<string>): (v: Value)
    ensures v.Obj? && |v.fields| == 8
    ensures ReadAnnotation(v, "blob_href") ==
      Some(Annotation(filename, blobHref, startLine, endLine, warningLevel, message, title, rawDetails))
  {
    AnnotationRecordReads("blob_href", filename, blobHref, startLine, endLine, warningLevel, message, title, rawDetails);
    AnnotationRecord("blob_href", filename, blobHref, startLine, endLine, warningLevel, message, title, rawDetails)
  }

  /** An image as the API defines it. */
  datatype Image = Image(alt: string, imageUrl: string, caption: string)

  function ReadImage(v: Value): Option<Image>
  {
    if !v.Obj? then None
    else
      var alt := GetStr(v.fields, "alt");
      var url := GetStr(v.fields, "image_url");
      var caption := GetStr(v.fields, "caption");
      if alt.Some? && url.Some? && caption.Some? then Some(Image(alt.value, url.value, caption.value)) else None
  }

  /** `createImage`: the three arguments verbatim. */
  function CreateImage(alt: string, imageUrl: string, caption: string): (v: Value)
    ensures v.Obj? && |v.fields| == 3
    ensures ReadImage(v) == Some(Image(alt, imageUrl, caption))
  {
    var fs := [Field("alt", Str(alt)), Field("image_url", Str(imageUrl)), Field("caption", Str(caption))];
    KeysDifferEarlyDistinct(fs);
    GetAt(fs, 0);
    GetAt(fs, 1);
    GetAt(fs, 2);
    Obj(fs)
  }

  /** A requested action as the API defines it. */
  datatype Action = Action(buttonLabel: string, identifier: string, description: string)

  function ReadAction(v: Value): Option<Action>
  {
    if !v.Obj? then None
    else
      var buttonLabel := GetStr(v.fields, "label");
      var identifier := GetStr(v.fields, "identifier");
      var description := GetStr(v.fields, "description");
      if buttonLabel.Some? && identifier.Some? && description.Some?
      then Some(Action(buttonLabel.value, identifier.value, description.value)) else None
  }

  /** `createAction`, with the source's default arguments. */
  function CreateAction(buttonLabel: string := "Fix", identifier: string := "fix_errors",
                        description: string := "Allow us to fix these errors for you"): (v: Value)
    ensures v.Obj? && |v.fields| == 3
    ensures ReadAction(v) == Some(Action(buttonLabel, identifier, description))
  {
    var fs := [Field("label", Str(buttonLabel)), Field("identifier", Str(identifier)), Field("description", Str(description))];
    KeysDifferEarlyDistinct(fs);
    GetAt(fs, 0);
    GetAt(fs, 1);
    GetAt(fs, 2);
    Obj(fs)
  }

  /** With no arguments, `createAction` asks GitHub for a "Fix" button. */
  lemma CreateActionDefaults()
    ensures ReadAction(CreateAction()) == Some(Action("Fix", "fix_errors", "Allow us to fix these errors for you"))
  {
  }
}

=== FILE: common.dfy ===
/** Failure-carrying wrappers shared by every module of the model. */
module Common {

  /** A value that may be absent; PHP's `null` for an optional field. */
  datatype Option<+T> = None | Some(value: T)
  {
    function GetOr(default: T): T
    {
      match this
      case Some(v) => v
      case None => default
    }
  }

  /** A thrown PHP `Exception` or `Error`, reduced to its code and message. */
  datatype Fault = Fault(code: int, message: string)

  /** Either the value a call returned or the fault it threw. */
  datatype Result<+T> = Ok(value: T) | Err(fault: Fault)

  /** PHP's `TypeError` and `ArgumentCountError` both carry code 0. */
  function EngineError(message: string): (f: Fault)
    ensures f.code == 0
  {
    Fault(0, message)
  }
}

=== FILE: github_webhook.dfy ===
/**
 * The GitHub webhook handler: a signature gate, then dispatch on the
 * `X-Github-Event` name to one handler per event, each of which turns the
 * decoded payload into at most one `builds` row, a deletion of rows, or a
 * change to an installation's repository list.
 *
 * The database is abstract state (`Db`); `DB::insert` hands out the next id.
 */
module GitHubWebhook {
  import opened Common
  import opened PhpString
  import opened Signature
  import PhpArray

  /** `static::$git_type`: every row this handler writes carries it. */
  const GitType := "github"
  /** The value of `CI::BUILD_STATUS_PENDING`. */
  const BuildStatusPending := "pending"
  /** The value of `CI::GITHUB_STATUS_PENDING`. */
  const GitHubStatusPending := "pending"
  const PendingDescription := "The analysis or builds is pending"

  // -----------------------------------------------------------------------
  // Decoded payloads

  datatype Person = Person(name: string, email: string, username: string)

  datatype HeadCommit = HeadCommit(id: string, message: string, timestamp: string, committer: Person, author: Person)

  datatype PullRequestInfo = PullRequestInfo(title: string, headSha: string, baseRef: string, baseRepoId: int, userLogin: string)

  datatype RepoRef = RepoRef(id: int, fullName: string)

  /**
   * The fields of a decoded delivery that the handlers read. `lists` holds
   * the payload's repository arrays by property name (`repositories`,
   * `repositories_added`, `repositories_removed`); a missing name reads as null.
   */
  datatype Payload = Payload(
    repositoryId: int,
    ref: string,
    baseRef: Option<string>,
    after: string,
    compare: string,
    headCommit: Option<HeadCommit>,
    action: string,
    number: int,
    pullRequest: PullRequestInfo,
    refType: string,
    installationId: int,
    senderId: int,
    lists: map<string, seq<RepoRef>>)

  /**
   * One inbound request: the two headers, the raw body, and `payload`, the
   * body as `json_decode` reads it. A missing header reads as `None`.
   */
  datatype Delivery = Delivery(event: Option<string>, signature: Option<string>, body: string, payload: Payload)

  /**
   * Environment values and the date parser, taken as inputs. `bindFault` is
   * what `DB::update` throws for a statement bound to a number of values
   * other than its number of placeholders; the database layer is not part
   * of this model, so its code and message are an input.
   */
  datatype Env = Env(
    webhooksToken: Option<string>, ciHost: string, ciName: string, now: int,
    parseDate: string -> int, bindFault: Fault)

  // -----------------------------------------------------------------------
  // Abstract database

  /** A `builds` row; a column the INSERT does not name is `None` (NULL). */
  datatype BuildRow = BuildRow(
    id: nat,
    gitType: string,
    eventType: string,
    ref: Option<string>,
    branch: Option<string>,
    tagName: Option<string>,
    compare: Option<string>,
    commitId: Option<string>,
    commitMessage: Option<string>,
    committerName: Option<string>,
    committerEmail: Option<string>,
    committerUsername: Option<string>,
    rid: Option<int>,
    eventTime: Option<int>,
    buildStatus: Option<string>,
    action: Option<string>,
    pullRequestId: Option<int>,
    requestRaw: string)

  /** An element of an installation's JSON `repo` array. */
  datatype RepoEntry = RepoId(id: int) | RepoObject(id: int, fullName: string)

  /** A `github_app_installation` row. */
  datatype InstallationRow = InstallationRow(installationId: int, repos: seq<RepoEntry>, senderId: Option<int>)

  /**
   * `builds` in insertion order with the next id to hand out,
   * `github_app_installation` in insertion order, and the `repo` table's
   * full names of GitHub repositories by provider id.
   */
  datatype Db = Db(builds: seq<BuildRow>, nextId: nat, installations: seq<InstallationRow>, repoNames: map<int, string>)

  /** Ids are below the next id and increase with insertion order. */
  predicate Valid(db: Db)
  {
    && (forall i :: 0 <= i < |db.builds| ==> db.builds[i].id < db.nextId)
    && (forall i, j :: 0 <= i < j < |db.builds| ==> db.builds[i].id < db.builds[j].id)
  }

  /** A row naming only `git_type`, `event_type` and `request_raw`. */
  function BareRow(eventType: string, raw: string): BuildRow
  {
    BuildRow(0, GitType, eventType, None, None, None, None, None, None, None, None, None, None, None, None, None, None, raw)
  }

  /** `DB::insert`: store the row under a fresh id and return that id. */
  function Insert(db: Db, row: BuildRow): (Db, nat)
  {
    (db.(builds := db.builds + [row.(id := db.nextId)], nextId := db.nextId + 1), db.nextId)
  }

  /** `after` is `before` with exactly one more build row, and nothing else changed. */
  predicate AppendedOne(before: Db, after: Db)
  {
    && |after.builds| == |before.builds| + 1
    && after.builds[..|before.builds|] == before.builds
    && after.builds[|before.builds|].id == before.nextId
    && after.nextId == before.nextId + 1
    && after.installations == before.installations
    && after.repoNames == before.repoNames
  }

  /** The build table and the id counter are as they were. */
  predicate BuildsKept(before: Db, after: Db)
  {
    after.builds == before.builds && after.nextId == before.nextId
  }

  /** At most one build row was written: one appended with the next id, or none. */
  predicate AtMostOneRow(before: Db, after: Db)
  {
    AppendedOne(before, after) || BuildsKept(before, after)
  }

  /** The columns every handler fills: the git type, the event name and the raw body. */
  predicate Stamped(row: BuildRow, eventType: string, raw: string)
  {
    row.gitType == GitType && row.eventType == eventType && row.requestRaw == raw
  }

  function Last(rows: seq<BuildRow>): BuildRow
    requires |rows| > 0
  {
    rows[|rows| - 1]
  }

  // -----------------------------------------------------------------------
  // Results

  /** The commit-status request `push` hands back for its caller to send. */
  datatype CommitStatus = CommitStatus(
    username: Option<string>, repoName: Option<string>, commitId: string,
    state: string, targetUrl: string, description: string, context: string)

  /** What a handler returns. */
  datatype Outcome =
    | InsertId(id: nat)                          // the id `DB::insert` returned
    | PushReport(rid: int, status: CommitStatus) // `push`'s `['rid' => ..., [...]]`
    | Affected(count: nat)                       // rows deleted or updated
    | Zero                                       // `return 0`
    | Null                                       // `void` or a bare fall-through
    | Code200                                    // `['code' => 200]`
    | Segment(value: Option<string>)             // `ref2branch` reached by name

  /** A handler either returns, throws, or never finishes. */
  datatype Response = Returned(value: Outcome) | Threw(fault: Fault) | Fatal

  /** The database after the call, with what the call produced. */
  datatype Reply = Reply(db: Db, response: Response)

  // -----------------------------------------------------------------------
  // Branch and tag names

  /** `ref2branch`: the third `/`-separated segment, or null when there is none. */
  function Ref2Branch(ref: string): Option<string>
  {
    Nth(Explode(ref, '/'), 2)
  }

  /** `'tags' === explode('/', $ref)[1]`. */
  predicate IsTagRef(ref: string)
  {
    Nth(Explode(ref, '/'), 1) == Some("tags")
  }

  /**
   * A branch ref keeps only its first segment after `refs/heads/`:
   * `refs/heads/a/b` names branch `a`.
   */
  lemma Ref2BranchKeepsThirdSegment(branch: string)
    ensures Ref2Branch("refs/heads/" + branch) == Some(Explode(branch, '/')[0])
    ensures '/' !in branch ==> Ref2Branch("refs/heads/" + branch) == Some(branch)
    ensures !IsTagRef("refs/heads/" + branch)
  {
    BranchRefSegments(branch);
    if '/' !in branch {
      ExplodeNoSep(branch, '/');
    }
  }

  lemma BranchRefSegments(branch: string)
    ensures Explode("refs/heads/" + branch, '/') == ["refs", "heads"] + Explode(branch, '/')
  {
    assert "refs/heads/" + branch == "refs" + ['/'] + "heads" + ['/'] + branch;
    ExplodeTwoPrefixes("refs", "heads", branch, '/');
  }

  // -----------------------------------------------------------------------
  // Handlers that write a build row

  /** `ping`: an audit row with the repository id and the delivery time. */
  function Ping(db: Db, env: Env, p: Payload, raw: string): (r: Reply)
    ensures AppendedOne(db, r.db)
    ensures Stamped(Last(r.db.builds), "ping", raw) && Last(r.db.builds).rid == Some(p.repositoryId)
    ensures Last(r.db.builds).eventTime == Some(env.now) && Last(r.db.builds).buildStatus.None?
    ensures r.response == Returned(InsertId(db.nextId))
  {
    var (db1, id) := Insert(db, BareRow("ping", raw).(rid := Some(p.repositoryId), eventTime := Some(env.now)));
    Reply(db1, Returned(InsertId(id)))
  }

  /** `status`, `issues`, `issue_comment`: a row with only the event name and the raw body. */
  function AuditRow(db: Db, eventType: string, raw: string): (r: Reply)
    ensures AppendedOne(db, r.db)
    ensures Stamped(Last(r.db.builds), eventType, raw)
    ensures Last(r.db.builds).commitId.None? && Last(r.db.builds).buildStatus.None?
    ensures r.response == Returned(InsertId(db.nextId))
  {
    var (db1, id) := Insert(db, BareRow(eventType, raw));
    Reply(db1, Returned(InsertId(id)))
  }

  /**
   * `tag`: one pending row for tag `tag`, branch taken from `base_ref`, and
   * the committer columns filled from the head commit's author. A null
   * `base_ref` fails `ref2branch`'s string parameter before anything is written.
   */
  function Tag(db: Db, env: Env, p: Payload, raw: string, tag: string): (r: Reply)
    ensures p.baseRef.None? ==> r.db == db && r.response.Threw? && r.response.fault.code == 0
    ensures p.baseRef.Some? ==>
      && AppendedOne(db, r.db)
      && r.response == Returned(InsertId(db.nextId))
      && Stamped(Last(r.db.builds), "tag", raw)
      && Last(r.db.builds).tagName == Some(tag)
      && Last(r.db.builds).rid == Some(p.repositoryId)
      && Last(r.db.builds).branch == Ref2Branch(p.baseRef.value)
      && Last(r.db.builds).ref == Some(p.ref)
      && Last(r.db.builds).buildStatus == Some(BuildStatusPending)
    ensures p.baseRef.Some? && p.headCommit.Some? ==>
      && Last(r.db.builds).commitId == Some(p.headCommit.value.id)
      && Last(r.db.builds).commitMessage == Some(p.headCommit.value.message)
      && Last(r.db.builds).eventTime == Some(env.parseDate(p.headCommit.value.timestamp))
      && Last(r.db.builds).committerName == Some(p.headCommit.value.author.name)
      && Last(r.db.builds).committerEmail == Some(p.headCommit.value.author.email)
      && Last(r.db.builds).committerUsername == Some(p.headCommit.value.author.username)
  {
    match p.baseRef
    case None => Reply(db, Threw(EngineError("ref2branch(): Argument #1 must be of type string, null given")))
    case Some(baseRef) =>
      var hc := p.headCommit;
      var row := BareRow("tag", raw).(
        ref := Some(p.ref),
        branch := Ref2Branch(baseRef),
        tagName := Some(tag),
        commitId := if hc.Some? then Some(hc.value.id) else None,
        commitMessage := if hc.Some? then Some(hc.value.message) else None,
        committerName := if hc.Some? then Some(hc.value.author.name) else None,
        committerEmail := if hc.Some? then Some(hc.value.author.email) else None,
        committerUsername := if hc.Some? then Some(hc.value.author.username) else None,
        rid := Some(p.repositoryId),
        eventTime := if hc.Some? then Some(env.parseDate(hc.value.timestamp)) else None,
        buildStatus := Some(BuildStatusPending));
      var (db1, id) := Insert(db, row);
      Reply(db1, Returned(InsertId(id)))
  }

  /** The commit status `push` reports for the row it inserted as `lastId`. */
  function PushStatus(env: Env, fullName: string, commitId: string, lastId: nat): (st: CommitStatus)
    ensures st.commitId == commitId && st.state == GitHubStatusPending
    ensures EndsWith(st.context, "/push")
    ensures EndsWith(st.targetUrl, "/builds/" + NatToString(lastId))
  {
    var build := "/builds/" + NatToString(lastId);
    var target := (env.ciHost + "/github/" + fullName) + build;
    var context := ("continuous-integration/" + env.ciName) + "/push";
    EndsWithConcat(env.ciHost + "/github/" + fullName, build);
    EndsWithConcat("continuous-integration/" + env.ciName, "/push");
    var names := Explode(fullName, '/');
    CommitStatus(Nth(names, 0), Nth(names, 1), commitId, GitHubStatusPending, target, PendingDescription, context)
  }

  /** A `owner/repo` full name splits into the status request's username and repository. */
  lemma PushStatusNames(env: Env, owner: string, repo: string, commitId: string, lastId: nat)
    requires '/' !in owner && '/' !in repo
    ensures PushStatus(env, owner + "/" + repo, commitId, lastId).username == Some(owner)
    ensures PushStatus(env, owner + "/" + repo, commitId, lastId).repoName == Some(repo)
  {
    ExplodePrefix(owner, repo, '/');
    ExplodeNoSep(repo, '/');
  }

  /**
   * `push`: a tag ref is handed to `tag` (see `PushOfTagRef`); a push without
   * a head commit is dropped; any other push writes one pending row and
   * reports a pending commit status pointing at that row.
   */
  function Push(db: Db, env: Env, p: Payload, raw: string): (r: Reply)
    ensures AtMostOneRow(db, r.db)
    ensures !IsTagRef(p.ref) && p.headCommit.None? ==> r == Reply(db, Returned(Zero))
    ensures !IsTagRef(p.ref) && p.headCommit.Some? ==>
      && AppendedOne(db, r.db)
      && var row := Last(r.db.builds);
      && var hc := p.headCommit.value;
      && Stamped(row, "push", raw)
      && row.ref == Some(p.ref)
      && row.branch == Ref2Branch(p.ref)
      && row.tagName.None?
      && row.commitId == Some(p.after)
      && row.compare == Some(p.compare)
      && row.commitMessage == Some(hc.message)
      && row.committerName == Some(hc.committer.name)
      && row.committerEmail == Some(hc.committer.email)
      && row.committerUsername == Some(hc.committer.username)
      && row.rid == Some(p.repositoryId)
      && row.eventTime == Some(env.parseDate(hc.timestamp))
      && row.buildStatus == Some(BuildStatusPending)
    ensures !IsTagRef(p.ref) ==> r == PushBranch(db, env, p, raw)
    ensures !IsTagRef(p.ref) && p.headCommit.Some? ==>
      (r.response.Returned? <==> p.repositoryId in db.repoNames)
    ensures !IsTagRef(p.ref) && r.response.Returned? && r.response.value.PushReport? ==>
      && r.response.value.rid == p.repositoryId
      && r.response.value.status.commitId == p.after
      && EndsWith(r.response.value.status.context, "/push")
      && EndsWith(r.response.value.status.targetUrl, "/builds/" + NatToString(db.nextId))
  {
    if IsTagRef(p.ref) then
      match Nth(Explode(p.ref, '/'), 2)
      case None => Reply(db, Threw(EngineError("tag(): Argument #1 must be of type string, null given")))
      case Some(tag) => Tag(db, env, p, raw, tag)
    else
      PushBranch(db, env, p, raw)
  }

  /**
   * The branch half of `push`: without a head commit nothing is stored;
   * with one, a pending row is stored before the repository name is looked
   * up, so a push for an unknown repository leaves its row behind and throws.
   */
  function PushBranch(db: Db, env: Env, p: Payload, raw: string): (r: Reply)
    ensures p.headCommit.None? ==> r == Reply(db, Returned(Zero))
    ensures p.headCommit.Some? ==>
      && AppendedOne(db, r.db)
      && var row := Last(r.db.builds);
      && var hc := p.headCommit.value;
      && Stamped(row, "push", raw)
      && row.ref == Some(p.ref)
      && row.branch == Ref2Branch(p.ref)
      && row.tagName.None?
      && row.commitId == Some(p.after)
      && row.compare == Some(p.compare)
      && row.commitMessage == Some(hc.message)
      && row.committerName == Some(hc.committer.name)
      && row.committerEmail == Some(hc.committer.email)
      && row.committerUsername == Some(hc.committer.username)
      && row.rid == Some(p.repositoryId)
      && row.eventTime == Some(env.parseDate(hc.timestamp))
      && row.buildStatus == Some(BuildStatusPending)
    ensures p.headCommit.Some? ==> (r.response.Returned? <==> p.repositoryId in db.repoNames)
    ensures p.headCommit.Some? && p.repositoryId in db.repoNames ==>
      r.response == Returned(PushReport(p.repositoryId, PushStatus(env, db.repoNames[p.repositoryId], p.after, db.nextId)))
    ensures p.headCommit.Some? && p.repositoryId !in db.repoNames ==> r.response.Threw? && r.response.fault.code == 0
    ensures r.response.Returned? && r.response.value.PushReport? ==>
      && r.response.value.rid == p.repositoryId
      && r.response.value.status.commitId == p.after
      && EndsWith(r.response.value.status.context, "/push")
      && EndsWith(r.response.value.status.targetUrl, "/builds/" + NatToString(db.nextId))
  {
    match p.headCommit
    case None => Reply(db, Returned(Zero))
    case Some(hc) =>
      var row := BareRow("push", raw).(
        ref := Some(p.ref),
        branch := Ref2Branch(p.ref),
        compare := Some(p.compare),
        commitId := Some(p.after),
        commitMessage := Some(hc.message),
        committerName := Some(hc.committer.name),
        committerEmail := Some(hc.committer.email),
        committerUsername := Some(hc.committer.username),
        rid := Some(p.repositoryId),
        eventTime := Some(env.parseDate(hc.timestamp)),
        buildStatus := Some(BuildStatusPending));
      var (db1, lastId) := Insert(db, row);
      if p.repositoryId !in db.repoNames then
        Reply(db1, Threw(EngineError("explode(): Argument #2 must be of type string, null given")))
      else
        Reply(db1, Returned(PushReport(p.repositoryId, PushStatus(env, db.repoNames[p.repositoryId], p.after, lastId))))
  }

  /**
   * A push of `refs/tags/<t>` is exactly the `tag` handler for the first
   * segment of `<t>`.
   */
  lemma PushOfTagRef(db: Db, env: Env, p: Payload, raw: string, t: string)
    requires p.ref == "refs/tags/" + t
    ensures IsTagRef(p.ref)
    ensures Push(db, env, p, raw) == Tag(db, env, p, raw, Explode(t, '/')[0])
  {
    assert p.ref == "refs" + ['/'] + "tags" + ['/'] + t;
    ExplodeTwoPrefixes("refs", "tags", t, '/');
  }

  /**
   * `pull_request`: one pending row for the base branch and the head commit,
   * keyed by the base repository, keeping the action verbatim.
   */
  function PullRequest(db: Db, p: Payload, raw: string): (r: Reply)
    ensures AppendedOne(db, r.db)
    ensures r.response == Returned(InsertId(db.nextId))
    ensures
      && var row := Last(r.db.builds);
      && Stamped(row, "pull_request", raw)
      && row.branch == Some(p.pullRequest.baseRef)
      && row.commitId == Some(p.pullRequest.headSha)
      && row.commitMessage == Some(p.pullRequest.title)
      && row.committerUsername == Some(p.pullRequest.userLogin)
      && row.pullRequestId == Some(p.number)
      && row.rid == Some(p.pullRequest.baseRepoId)
      && row.action == Some(p.action)
      && row.buildStatus == Some(BuildStatusPending)
      && row.tagName.None? && row.ref.None?
  {
    var pr := p.pullRequest;
    var row := BareRow("pull_request", raw).(
      action := Some(p.action),
      commitId := Some(pr.headSha),
      commitMessage := Some(pr.title),
      committerUsername := Some(pr.userLogin),
      pullRequestId := Some(p.number),
      branch := Some(pr.baseRef),
      rid := Some(pr.baseRepoId),
      buildStatus := Some(BuildStatusPending));
    var (db1, id) := Insert(db, row);
    Reply(db1, Returned(InsertId(id)))
  }

  // -----------------------------------------------------------------------
  // delete

  /** `WHERE git_type=? AND branch=? AND rid=?`; a NULL column never matches. */
  predicate DeleteMatches(row: BuildRow, branch: string, rid: int)
  {
    row.gitType == GitType && row.branch == Some(branch) && row.rid == Some(rid)
  }

  /**
   * The rows a `DELETE FROM builds WHERE ...` leaves. `KeepUnmatchedCounts`
   * adds that every other row stays as often as it was there, and
   * `KeepUnmatchedSplits` that they stay in their order.
   */
  function KeepUnmatched(rows: seq<BuildRow>, branch: string, rid: int): (kept: seq<BuildRow>)
    ensures |kept| <= |rows|
    ensures forall row :: row in kept <==> row in rows && !DeleteMatches(row, branch, rid)
  {
    if |rows| == 0 then []
    else if DeleteMatches(rows[0], branch, rid) then KeepUnmatched(rows[1..], branch, rid)
    else [rows[0]] + KeepUnmatched(rows[1..], branch, rid)
  }

  /** A matching row is gone; any other row survives as often as it was there. */
  lemma {:induction false} KeepUnmatchedCounts(rows: seq<BuildRow>, branch: string, rid: int)
    ensures forall row :: multiset(KeepUnmatched(rows, branch, rid))[row] == if DeleteMatches(row, branch, rid) then 0 else multiset(rows)[row]
    decreases |rows|
  {
    if |rows| > 0 {
      KeepUnmatchedCounts(rows[1..], branch, rid);
      assert rows == [rows[0]] + rows[1..];
      assert multiset(rows) == multiset([rows[0]]) + multiset(rows[1..]);
    }
  }

  /**
   * The DELETE works row by row: on a list split in two it keeps the
   * survivors of the first part, then those of the second. With
   * `KeepUnmatchedOne` this fixes the order of the survivors.
   */
  lemma {:induction false} KeepUnmatchedSplits(a: seq<BuildRow>, b: seq<BuildRow>, branch: string, rid: int)
    ensures KeepUnmatched(a + b, branch, rid) == KeepUnmatched(a, branch, rid) + KeepUnmatched(b, branch, rid)
    decreases |a|
  {
    if |a| == 0 {
      assert a + b == b;
    } else {
      assert (a + b)[0] == a[0];
      assert (a + b)[1..] == a[1..] + b;
      KeepUnmatchedSplits(a[1..], b, branch, rid);
      var ka, kb := KeepUnmatched(a[1..], branch, rid), KeepUnmatched(b, branch, rid);
      assert [a[0]] + (ka + kb) == ([a[0]] + ka) + kb;
    }
  }

  /** A single row is deleted when it matches and kept otherwise. */
  lemma KeepUnmatchedOne(x: BuildRow, branch: string, rid: int)
    ensures KeepUnmatched([x], branch, rid) == if DeleteMatches(x, branch, rid) then [] else [x]
  {
    assert [x][1..] == [];
  }

  lemma {:induction false} KeepUnmatchedValid(db: Db, branch: string, rid: int)
    requires Valid(db)
    ensures Valid(db.(builds := KeepUnmatched(db.builds, branch, rid)))
    decreases |db.builds|
  {
    if |db.builds| > 0 {
      var tail := db.(builds := db.builds[1..]);
      assert Valid(tail);
      KeepUnmatchedValid(tail, branch, rid);
      var rest := KeepUnmatched(db.builds[1..], branch, rid);
      forall j | 0 <= j < |rest|
        ensures db.builds[0].id < rest[j].id
      {
        assert rest[j] in db.builds[1..];
      }
    }
  }

  /**
   * `delete`: for a branch, remove exactly the GitHub rows of that branch and
   * repository and report how many went; for anything else, change nothing.
   */
  function Delete(db: Db, p: Payload): (r: Reply)
    ensures p.refType != "branch" ==> r == Reply(db, Returned(Zero))
    ensures p.refType == "branch" ==>
      && r.db == db.(builds := r.db.builds)
      && |r.db.builds| <= |db.builds|
      && r.db.builds == KeepUnmatched(db.builds, p.ref, p.repositoryId)
      && (forall row :: row in r.db.builds <==> row in db.builds && !DeleteMatches(row, p.ref, p.repositoryId))
      && (forall row :: multiset(r.db.builds)[row] == if DeleteMatches(row, p.ref, p.repositoryId) then 0 else multiset(db.builds)[row])
      && r.response == Returned(Affected(|db.builds| - |r.db.builds|))
  {
    if p.refType == "branch" then
      var kept := KeepUnmatched(db.builds, p.ref, p.repositoryId);
      KeepUnmatchedCounts(db.builds, p.ref, p.repositoryId);
      Reply(db.(builds := kept), Returned(Affected(|db.builds| - |kept|)))
    else
      Reply(db, Returned(Zero))
  }

  // -----------------------------------------------------------------------
  // Installations

  /** `UPDATE github_app_installation SET repo=<f(repo)> WHERE installation_id=?`. */
  function AppendEntry(rows: seq<InstallationRow>, iid: int, e: RepoEntry): seq<InstallationRow>
  {
    seq(|rows|, i requires 0 <= i < |rows| =>
      if rows[i].installationId == iid then rows[i].(repos := rows[i].repos + [e]) else rows[i])
  }

  /** Every entry of `repos` except those whose id is `id`. */
  function WithoutId(repos: seq<RepoEntry>, id: int): (r: seq<RepoEntry>)
    ensures forall e :: e in r <==> e in repos && e.id != id
  {
    if |repos| == 0 then []
    else if repos[0].id == id then WithoutId(repos[1..], id)
    else [repos[0]] + WithoutId(repos[1..], id)
  }

  lemma {:induction false} WithoutIdIdempotent(repos: seq<RepoEntry>, id: int)
    ensures WithoutId(WithoutId(repos, id), id) == WithoutId(repos, id)
  {
    if |repos| > 0 {
      WithoutIdIdempotent(repos[1..], id);
    }
  }

  /** The corrected removal: drop the repository from that installation's rows only. */
  function RemoveEntry(rows: seq<InstallationRow>, iid: int, id: int): (r: seq<InstallationRow>)
    ensures |r| == |rows|
    ensures forall i :: 0 <= i < |rows| && rows[i].installationId != iid ==> r[i] == rows[i]
    ensures forall i :: 0 <= i < |rows| && rows[i].installationId == iid ==>
      r[i].installationId == iid && r[i].senderId == rows[i].senderId &&
      forall e :: e in r[i].repos <==> e in rows[i].repos && e.id != id
  {
    seq(|rows|, i requires 0 <= i < |rows| =>
      if rows[i].installationId == iid then rows[i].(repos := WithoutId(rows[i].repos, id)) else rows[i])
  }

  /** Removing the same repository twice leaves what removing it once left. */
  lemma RemoveEntryIdempotent(rows: seq<InstallationRow>, iid: int, id: int)
    ensures RemoveEntry(RemoveEntry(rows, iid, id), iid, id) == RemoveEntry(rows, iid, id)
  {
    var once := RemoveEntry(rows, iid, id);
    forall i | 0 <= i < |rows| && rows[i].installationId == iid
      ensures WithoutId(once[i].repos, id) == once[i].repos
    {
      WithoutIdIdempotent(rows[i].repos, id);
    }
  }

  /** The number of rows an UPDATE changed (MySQL's affected-rows count). */
  function ChangedRows(before: seq<InstallationRow>, after: seq<InstallationRow>): nat
    requires |before| == |after|
  {
    if |before| == 0 then 0
    else (if before[0] != after[0] then 1 else 0) + ChangedRows(before[1..], after[1..])
  }

  /**
   * Appending to a JSON array always changes the value, so the append
   * reports one affected row for each row of that installation.
   */
  lemma {:induction false} ChangedRowsAppendEntry(rows: seq<InstallationRow>, iid: int, e: RepoEntry)
    ensures ChangedRows(rows, AppendEntry(rows, iid, e)) == RowsFor(rows, iid)
    decreases |rows|
  {
    if |rows| > 0 {
      var after := AppendEntry(rows, iid, e);
      assert after[1..] == AppendEntry(rows[1..], iid, e);
      if rows[0].installationId == iid {
        assert |after[0].repos| == |rows[0].repos| + 1;
      }
      ChangedRowsAppendEntry(rows[1..], iid, e);
    }
  }

  /** Values bound to the removal statement, as written: `[$id, $full_name, $installation_id]`. */
  function RemovalBindingAsWritten(r: RepoRef, iid: int): seq<PhpArray.Value>
  {
    [PhpArray.Int(r.id), PhpArray.Str(r.fullName), PhpArray.Int(iid)]
  }

  /** `JSON_REMOVE(repo,?) WHERE installation_id=?` has two placeholders. */
  const RemovalPlaceholders := 2

  /**
   * As written, the removal binds three values to two placeholders, and the
   * one meant for `installation_id` is the repository's full name.
   */
  lemma RemovalBindingMismatch(r: RepoRef, iid: int)
    ensures |RemovalBindingAsWritten(r, iid)| != RemovalPlaceholders
    ensures RemovalBindingAsWritten(r, iid)[1] != PhpArray.Int(iid)
  {
  }

  /**
   * `installation_repositories`: only the first repository of
   * `repositories_<action>` is handled, because the loop returns. `added`
   * appends it to that installation's rows. Any other action runs the
   * removal statement with the binding `RemovalBindingMismatch` describes,
   * which `DB::update` rejects: nothing changes and `bindFault` is thrown.
   * No such list, or an empty one, falls through to a null result.
   */
  function InstallationRepositories(db: Db, env: Env, p: Payload): (r: Reply)
    ensures r.db.builds == db.builds && r.db.nextId == db.nextId && r.db.repoNames == db.repoNames
    ensures |r.db.installations| == |db.installations|
    ensures forall i :: 0 <= i < |db.installations| && db.installations[i].installationId != p.installationId ==>
      r.db.installations[i] == db.installations[i]
    ensures ("repositories_" + p.action !in p.lists || |p.lists["repositories_" + p.action]| == 0) ==>
      r == Reply(db, Returned(Null))
    ensures "repositories_" + p.action in p.lists && |p.lists["repositories_" + p.action]| > 0 && p.action == "added" ==>
      var first := p.lists["repositories_" + p.action][0];
      && r.response == Returned(Affected(RowsFor(db.installations, p.installationId)))
      && forall i :: 0 <= i < |db.installations| && db.installations[i].installationId == p.installationId ==>
           r.db.installations[i] ==
             db.installations[i].(repos := db.installations[i].repos + [RepoObject(first.id, first.fullName)])
    ensures "repositories_" + p.action in p.lists && |p.lists["repositories_" + p.action]| > 0 && p.action != "added" ==>
      r == Reply(db, Threw(env.bindFault))
  {
    var key := "repositories_" + p.action;
    if key !in p.lists || |p.lists[key]| == 0 then Reply(db, Returned(Null))
    else
      var first := p.lists[key][0];
      if p.action == "added" then
        var rows := AppendEntry(db.installations, p.installationId, RepoObject(first.id, first.fullName));
        ChangedRowsAppendEntry(db.installations, p.installationId, RepoObject(first.id, first.fullName));
        Reply(db.(installations := rows), Returned(Affected(ChangedRows(db.installations, rows))))
      else
        Reply(db, Threw(env.bindFault))
  }

  /**
   * `installation_repositories` as its removal branch is evidently meant:
   * the first repository of the list leaves that installation's rows.
   */
  function InstallationRepositoriesIntended(db: Db, p: Payload): (r: Reply)
    ensures r.db.builds == db.builds && r.db.nextId == db.nextId && r.db.repoNames == db.repoNames
    ensures |r.db.installations| == |db.installations|
    ensures forall i :: 0 <= i < |db.installations| && db.installations[i].installationId != p.installationId ==>
      r.db.installations[i] == db.installations[i]
    ensures ("repositories_" + p.action !in p.lists || |p.lists["repositories_" + p.action]| == 0) ==>
      r == Reply(db, Returned(Null))
    ensures "repositories_" + p.action in p.lists && |p.lists["repositories_" + p.action]| > 0 && p.action == "added" ==>
      var first := p.lists["repositories_" + p.action][0];
      forall i :: 0 <= i < |db.installations| && db.installations[i].installationId == p.installationId ==>
        r.db.installations[i].repos == db.installations[i].repos + [RepoObject(first.id, first.fullName)]
    ensures "repositories_" + p.action in p.lists && |p.lists["repositories_" + p.action]| > 0 && p.action != "added" ==>
      var first := p.lists["repositories_" + p.action][0];
      && r.response.Returned?
      && forall i :: 0 <= i < |db.installations| && db.installations[i].installationId == p.installationId ==>
           forall e :: e in r.db.installations[i].repos <==> e in db.installations[i].repos && e.id != first.id
  {
    var key := "repositories_" + p.action;
    if key !in p.lists || |p.lists[key]| == 0 then Reply(db, Returned(Null))
    else
      var first := p.lists[key][0];
      var rows :=
        if p.action == "added" then AppendEntry(db.installations, p.installationId, RepoObject(first.id, first.fullName))
        else RemoveEntry(db.installations, p.installationId, first.id);
      Reply(db.(installations := rows), Returned(Affected(ChangedRows(db.installations, rows))))
  }

  /**
   * A `removed` delivery for a repository an installation row lists: as
   * written the entry stays and the handler throws; as intended it is gone.
   */
  lemma RemovalAsWrittenKeepsEntry(db: Db, env: Env, p: Payload, i: nat, e: RepoEntry)
    requires p.action == "removed" && "repositories_removed" in p.lists && |p.lists["repositories_removed"]| > 0
    requires i < |db.installations| && db.installations[i].installationId == p.installationId
    requires e in db.installations[i].repos && e.id == p.lists["repositories_removed"][0].id
    ensures InstallationRepositories(db, env, p).response.Threw?
    ensures e in InstallationRepositories(db, env, p).db.installations[i].repos
    ensures e !in InstallationRepositoriesIntended(db, p).db.installations[i].repos
  {
    assert "repositories_" + p.action == "repositories_removed";
  }

  /** The number of installation rows for `iid`. */
  function RowsFor(rows: seq<InstallationRow>, iid: int): nat
  {
    if |rows| == 0 then 0 else (if rows[0].installationId == iid then 1 else 0) + RowsFor(rows[1..], iid)
  }

  lemma {:induction false} RowsForAppend(a: seq<InstallationRow>, b: seq<InstallationRow>, iid: int)
    ensures RowsFor(a + b, iid) == RowsFor(a, iid) + RowsFor(b, iid)
    decreases |a|
  {
    if |a| > 0 {
      assert (a + b)[1..] == a[1..] + b;
      RowsForAppend(a[1..], b, iid);
    } else {
      assert a + b == b;
    }
  }

  /** The rows the INSERT of `installation_action_created` adds, one per repository. */
  function CreatedRows(repos: seq<RepoRef>, iid: int, sender: int): (rows: seq<InstallationRow>)
    ensures |rows| == |repos|
    ensures forall k :: 0 <= k < |repos| ==> rows[k] == InstallationRow(iid, [RepoId(repos[k].id)], Some(sender))
  {
    if |repos| == 0 then []
    else [InstallationRow(iid, [RepoId(repos[0].id)], Some(sender))] + CreatedRows(repos[1..], iid, sender)
  }

  lemma {:induction false} CreatedRowsFor(repos: seq<RepoRef>, iid: int, sender: int)
    ensures RowsFor(CreatedRows(repos, iid, sender), iid) == |repos|
    decreases |repos|
  {
    if |repos| > 0 {
      var rows := CreatedRows(repos, iid, sender);
      assert rows[1..] == CreatedRows(repos[1..], iid, sender);
      CreatedRowsFor(repos[1..], iid, sender);
    }
  }

  /**
   * `installation_action_created` as written: the counter `$i` is never
   * advanced, so every repository takes the INSERT branch and adds a row of
   * its own holding its id; existing rows are untouched. Always returns 0.
   */
  function InstallationCreated(db: Db, repos: seq<RepoRef>, iid: int, sender: int): (r: Reply)
    ensures r.response == Returned(Zero)
    ensures r.db.builds == db.builds && r.db.nextId == db.nextId && r.db.repoNames == db.repoNames
    ensures |r.db.installations| == |db.installations| + |repos|
    ensures r.db.installations[..|db.installations|] == db.installations
    ensures forall k :: 0 <= k < |repos| ==>
      r.db.installations[|db.installations| + k] == InstallationRow(iid, [RepoId(repos[k].id)], Some(sender))
  {
    Reply(db.(installations := db.installations + CreatedRows(repos, iid, sender)), Returned(Zero))
  }

  /** As written, an installation with `n` repositories gains `n` rows. */
  lemma InstallationCreatedRowCount(db: Db, repos: seq<RepoRef>, iid: int, sender: int)
    ensures RowsFor(InstallationCreated(db, repos, iid, sender).db.installations, iid) ==
      RowsFor(db.installations, iid) + |repos|
  {
    RowsForAppend(db.installations, CreatedRows(repos, iid, sender), iid);
    CreatedRowsFor(repos, iid, sender);
  }

  /** The ids of `repos`, as `installation_action_created` appends them. */
  function IdsOf(repos: seq<RepoRef>): (ids: seq<RepoEntry>)
    ensures |ids| == |repos|
  {
    if |repos| == 0 then [] else [RepoId(repos[0].id)] + IdsOf(repos[1..])
  }

  /** The UPDATE branch for each later repository: append its id to every row of the installation. */
  function AppendIds(rows: seq<InstallationRow>, iid: int, rest: seq<RepoRef>): seq<InstallationRow>
    decreases |rest|
  {
    if |rest| == 0 then rows
    else AppendIds(AppendEntry(rows, iid, RepoId(rest[0].id)), iid, rest[1..])
  }

  lemma {:induction false} AppendIdsEffect(rows: seq<InstallationRow>, iid: int, rest: seq<RepoRef>)
    ensures |AppendIds(rows, iid, rest)| == |rows|
    ensures forall i :: 0 <= i < |rows| ==>
      AppendIds(rows, iid, rest)[i] ==
        (if rows[i].installationId == iid then rows[i].(repos := rows[i].repos + IdsOf(rest)) else rows[i])
    decreases |rest|
  {
    if |rest| > 0 {
      var step := AppendEntry(rows, iid, RepoId(rest[0].id));
      AppendIdsEffect(step, iid, rest[1..]);
      forall i | 0 <= i < |rows| && rows[i].installationId == iid
        ensures rows[i].repos + [RepoId(rest[0].id)] + IdsOf(rest[1..]) == rows[i].repos + IdsOf(rest)
      {
        assert IdsOf(rest) == [RepoId(rest[0].id)] + IdsOf(rest[1..]);
      }
    }
  }

  /**
   * `installation_action_created` with its counter advanced, as the
   * `0 === $i` test evidently means: the first repository inserts one row
   * for the installation, and each later one takes the UPDATE branch and
   * appends its id to every row of that installation.
   */
  function InstallationCreatedIntended(db: Db, repos: seq<RepoRef>, iid: int, sender: int): (r: Reply)
    ensures r.response == Returned(Zero)
    ensures r.db.builds == db.builds && r.db.nextId == db.nextId && r.db.repoNames == db.repoNames
    ensures |repos| == 0 ==> r.db == db
    ensures |repos| > 0 ==>
      && |r.db.installations| == |db.installations| + 1
      && r.db.installations[|db.installations|] == InstallationRow(iid, IdsOf(repos), Some(sender))
      && (forall i :: 0 <= i < |db.installations| && db.installations[i].installationId != iid ==>
           r.db.installations[i] == db.installations[i])
      && (forall i :: 0 <= i < |db.installations| && db.installations[i].installationId == iid ==>
           r.db.installations[i] == db.installations[i].(repos := db.installations[i].repos + IdsOf(repos[1..])))
  {
    if |repos| == 0 then Reply(db, Returned(Zero))
    else
      var rows := db.installations + [InstallationRow(iid, [RepoId(repos[0].id)], Some(sender))];
      AppendIdsEffect(rows, iid, repos[1..]);
      assert [RepoId(repos[0].id)] + IdsOf(repos[1..]) == IdsOf(repos);
      Reply(db.(installations := AppendIds(rows, iid, repos[1..])), Returned(Zero))
  }

  /** As intended, an installation gains one row however many repositories it has. */
  lemma InstallationCreatedIntendedRowCount(db: Db, repos: seq<RepoRef>, iid: int, sender: int)
    requires |repos| > 0
    ensures RowsFor(InstallationCreatedIntended(db, repos, iid, sender).db.installations, iid) ==
      RowsFor(db.installations, iid) + 1
  {
    var after := InstallationCreatedIntended(db, repos, iid, sender).db.installations;
    var n := |db.installations|;
    assert after == after[..n] + [after[n]];
    RowsForAppend(after[..n], [after[n]], iid);
    RowsForKeepsMatches(db.installations, after[..n], iid);
    assert RowsFor([after[n]], iid) == 1 by {
      assert [after[n]][1..] == [];
    }
  }

  /** Rows changed only within `iid`'s own rows keep `iid`'s row count. */
  lemma {:induction false} RowsForKeepsMatches(a: seq<InstallationRow>, b: seq<InstallationRow>, iid: int)
    requires |a| == |b|
    requires forall i :: 0 <= i < |a| ==> (a[i].installationId == iid <==> b[i].installationId == iid)
    ensures RowsFor(a, iid) == RowsFor(b, iid)
    decreases |a|
  {
    if |a| > 0 {
      RowsForKeepsMatches(a[1..], b[1..], iid);
    }
  }

  /**
   * `installation`: `created` goes to `installation_action_created`; every
   * other action calls `installation_action_deleted` with its first two
   * arguments swapped, which fails the `array` parameter type.
   */
  function Installation(db: Db, p: Payload): (r: Reply)
    ensures BuildsKept(db, r.db)
    ensures p.action != "created" ==> r.db == db && r.response.Threw? && r.response.fault.code == 0
    ensures p.action == "created" && "repositories" !in p.lists ==> r.db == db && r.response.Threw?
    ensures p.action == "created" && "repositories" in p.lists ==>
      r == InstallationCreated(db, p.lists["repositories"], p.installationId, p.senderId)
  {
    if p.action == "created" then
      if "repositories" in p.lists then InstallationCreated(db, p.lists["repositories"], p.installationId, p.senderId)
      else Reply(db, Threw(EngineError("installation_action_created(): Argument #1 ($repo) must be of type array, null given")))
    else
      Reply(db, Threw(EngineError("installation_action_deleted(): Argument #1 ($repo) must be of type array, int given")))
  }

  // -----------------------------------------------------------------------
  // Dispatch

  /** The methods of the handler class that an event name can reach. */
  datatype Handler =
    | HPing | HPush | HStatus | HIssues | HIssueComment | HPullRequest | HTag | HWatch | HFork
    | HRelease | HCreate | HDelete | HRef2Branch | HMember | HTeamAdd | HInstallation
    | HInstallationCreated | HInstallationDeleted | HInstallationRepositories
    | HIntegrationInstallation | HIntegrationInstallationRepositories | HCheckSuite | HCheckRun
    | HConstruct | HInvoke

  /** `$this->$type`: method names are matched without regard to ASCII case. */
  function HandlerOf(name: string): Option<Handler>
  {
    match Lower(name)
    case "ping" => Some(HPing)
    case "push" => Some(HPush)
    case "status" => Some(HStatus)
    case "issues" => Some(HIssues)
    case "issue_comment" => Some(HIssueComment)
    case "pull_request" => Some(HPullRequest)
    case "tag" => Some(HTag)
    case "watch" => Some(HWatch)
    case "fork" => Some(HFork)
    case "release" => Some(HRelease)
    case "create" => Some(HCreate)
    case "delete" => Some(HDelete)
    case "ref2branch" => Some(HRef2Branch)
    case "member" => Some(HMember)
    case "team_add" => Some(HTeamAdd)
    case "installation" => Some(HInstallation)
    case "installation_action_created" => Some(HInstallationCreated)
    case "installation_action_deleted" => Some(HInstallationDeleted)
    case "installation_repositories" => Some(HInstallationRepositories)
    case "integration_installation" => Some(HIntegrationInstallation)
    case "integration_installation_repositories" => Some(HIntegrationInstallationRepositories)
    case "check_suite" => Some(HCheckSuite)
    case "check_run" => Some(HCheckRun)
    case "__construct" => Some(HConstruct)
    case "__invoke" => Some(HInvoke)
    case _ => None
  }

  /** An event name reaches the same method whatever the case of its ASCII letters. */
  lemma HandlerOfIgnoresCase(name: string)
    ensures HandlerOf(Lower(name)) == HandlerOf(name)
    ensures HandlerOf("PUSH") == Some(HPush) && HandlerOf("Pull_Request") == Some(HPullRequest)
  {
    LowerIdempotent(name);
    assert Lower("PUSH") == "push" by {
      assert forall i :: 0 <= i < 4 ==> Lower("PUSH")[i] == "push"[i];
    }
    assert Lower("Pull_Request") == "pull_request" by {
      assert forall i :: 0 <= i < 12 ==> Lower("Pull_Request")[i] == "pull_request"[i];
    }
  }

  /**
   * `$this->$type($content)`. An unknown name is a call to a method that
   * does not exist: an `Error`, not a no-op.
   */
  function Dispatch(db: Db, env: Env, name: string, p: Payload, raw: string): (r: Reply)
    ensures HandlerOf(name).None? ==> r.db == db && r.response.Threw? && r.response.fault.code == 0
  {
    match HandlerOf(name)
    case None => Reply(db, Threw(EngineError("Call to undefined method " + name + "()")))
    case Some(h) => Run(db, env, h, p, raw)
  }

  /**
   * The method an event name reached, called with the raw body as its only
   * argument. `tag` and the two `installation_action_*` helpers reject that
   * argument list; `__invoke` re-enters the gate with the same request and
   * never finishes.
   */
  function Run(db: Db, env: Env, h: Handler, p: Payload, raw: string): (r: Reply)
    ensures h != HDelete ==> AtMostOneRow(db, r.db)
  {
    match h
    case HPing => Ping(db, env, p, raw)
    case HPush => Push(db, env, p, raw)
    case HStatus => AuditRow(db, "status", raw)
    case HIssues => AuditRow(db, "issues", raw)
    case HIssueComment => AuditRow(db, "issue_comment", raw)
    case HPullRequest => PullRequest(db, p, raw)
    case HTag => Reply(db, Threw(EngineError("Too few arguments to function tag(), 1 passed and exactly 2 expected")))
    case HWatch => Reply(db, Returned(Code200))
    case HFork => Reply(db, Returned(Code200))
    case HDelete => Delete(db, p)
    case HRef2Branch => Reply(db, Returned(Segment(Ref2Branch(raw))))
    case HInstallation => Installation(db, p)
    case HInstallationCreated =>
      Reply(db, Threw(EngineError("installation_action_created(): Argument #1 must be of type array, string given")))
    case HInstallationDeleted =>
      Reply(db, Threw(EngineError("installation_action_deleted(): Argument #1 must be of type array, string given")))
    case HInstallationRepositories => InstallationRepositories(db, env, p)
    case HInvoke => Reply(db, Fatal)
    case _ => Reply(db, Returned(Null))
  }

  /**
   * `__invoke`: run the handler only when the signature header matches the
   * HMAC of the body under `CI_WEBHOOKS_TOKEN` (else `md5('khsci')`). A
   * mismatch throws code 402; a missing header or an unknown algorithm
   * throws an engine error; either way nothing is written. A fault from the
   * handler is rethrown with its message and code.
   */
  function Invoke(db: Db, env: Env, prim: Primitives, d: Delivery): (r: Reply)
    ensures Gate(d.signature, d.body, Secret(None, env.webhooksToken, prim), prim) == Pass ==>
      r == Dispatch(db, env, d.event.GetOr("undefined"), d.payload, d.body)
    ensures Gate(d.signature, d.body, Secret(None, env.webhooksToken, prim), prim) == Reject ==>
      r == Reply(db, Threw(Fault(402, "")))
    ensures Gate(d.signature, d.body, Secret(None, env.webhooksToken, prim), prim).Fail? ==>
      r == Reply(db, Threw(Gate(d.signature, d.body, Secret(None, env.webhooksToken, prim), prim).fault))
  {
    var g := Gate(d.signature, d.body, Secret(None, env.webhooksToken, prim), prim);
    if g == Pass then Dispatch(db, env, d.event.GetOr("undefined"), d.payload, d.body)
    else if g == Reject then Reply(db, Threw(Fault(402, "")))
    else Reply(db, Threw(g.fault))
  }

  /**
   * Only a delivery whose header matches the HMAC reaches a handler; any
   * other throws and writes nothing, and a missing header throws code 0.
   */
  lemma InvokeGuarded(db: Db, env: Env, prim: Primitives, d: Delivery)
    ensures d.signature.Some? && Accepted(d.signature.value, d.body, Secret(None, env.webhooksToken, prim), prim) ==>
      Invoke(db, env, prim, d) == Dispatch(db, env, d.event.GetOr("undefined"), d.payload, d.body)
    ensures !(d.signature.Some? && Accepted(d.signature.value, d.body, Secret(None, env.webhooksToken, prim), prim)) ==>
      Invoke(db, env, prim, d).db == db && Invoke(db, env, prim, d).response.Threw?
    ensures d.signature.None? ==> Invoke(db, env, prim, d).response.fault.code == 0
  {
  }

  // -----------------------------------------------------------------------
  // The id invariant

  lemma InsertValid(db: Db, row: BuildRow)
    requires Valid(db)
    ensures Valid(Insert(db, row).0)
  {
  }

  lemma AppendedOneValid(before: Db, after: Db)
    requires Valid(before) && AppendedOne(before, after)
    ensures Valid(after)
  {
    assert forall i :: 0 <= i < |before.builds| ==> after.builds[i] == before.builds[i];
  }

  lemma SameBuildsValid(before: Db, after: Db)
    requires Valid(before)
    requires after.builds == before.builds && after.nextId == before.nextId
    ensures Valid(after)
  {
  }

  lemma RunPreservesValid(db: Db, env: Env, h: Handler, p: Payload, raw: string)
    requires Valid(db)
    ensures Valid(Run(db, env, h, p, raw).db)
  {
    var after := Run(db, env, h, p, raw).db;
    if h == HDelete {
      if p.refType == "branch" {
        KeepUnmatchedValid(db, p.ref, p.repositoryId);
      }
    } else {
      AtMostOneRowValid(db, after);
    }
  }

  lemma PushPreservesValid(db: Db, env: Env, p: Payload, raw: string)
    requires Valid(db)
    ensures Valid(Push(db, env, p, raw).db)
  {
    AtMostOneRowValid(db, Push(db, env, p, raw).db);
  }

  lemma AtMostOneRowValid(before: Db, after: Db)
    requires Valid(before) && AtMostOneRow(before, after)
    ensures Valid(after)
  {
    if AppendedOne(before, after) {
      AppendedOneValid(before, after);
    } else {
      SameBuildsValid(before, after);
    }
  }

  /** Every delivery, accepted or not, keeps build ids fresh and increasing. */
  lemma InvokePreservesValid(db: Db, env: Env, prim: Primitives, d: Delivery)
    requires Valid(db)
    ensures Valid(Invoke(db, env, prim, d).db)
  {
    if Gate(d.signature, d.body, Secret(None, env.webhooksToken, prim), prim) == Pass {
      var name := d.event.GetOr("undefined");
      if HandlerOf(name).Some? {
        RunPreservesValid(db, env, HandlerOf(name).value, d.payload, d.body);
      }
    }
  }
}

=== FILE: http.dfy ===
/** Outbound HTTP as the clients see it: a request they build and a response they are handed. */
module Http {
  import opened Common
  import opened PhpString
  import opened PhpArray

  datatype Method = Get | Post | Patch | Put

  /** A request as handed to the HTTP client; `body` is the array given to `json_encode`. */
  datatype HttpRequest = HttpRequest(verb: Method, url: string, body: Option<Value>, accept: Option<string>)

  /** What the HTTP client reports back: the status code and the response body. */
  datatype HttpResponse = HttpResponse(code: int, body: string)

  /** The `key=value` pairs `http_build_query` emits: `null` values are skipped. */
  function QueryPairs(pairs: seq<(string, Option<string>)>, encode: string -> string): seq<string>
  {
    if |pairs| == 0 then []
    else
      var rest := QueryPairs(pairs[1..], encode);
      match pairs[0].1
      case None => rest
      case Some(v) => [encode(pairs[0].0) + "=" + encode(v)] + rest
  }

  /** `http_build_query($pairs)`, with `urlencode` supplied as `encode`. */
  function BuildQuery(pairs: seq<(string, Option<string>)>, encode: string -> string): string
  {
    Implode("&", QueryPairs(pairs, encode))
  }

  /** A query with every value null is empty; with every value present it has one pair per entry. */
  lemma {:induction false} QueryPairsCount(pairs: seq<(string, Option<string>)>, encode: string -> string)
    ensures (forall i :: 0 <= i < |pairs| ==> pairs[i].1.None?) ==> QueryPairs(pairs, encode) == []
    ensures (forall i :: 0 <= i < |pairs| ==> pairs[i].1.Some?) ==> |QueryPairs(pairs, encode)| == |pairs|
  {
    if |pairs| > 0 {
      QueryPairsCount(pairs[1..], encode);
      assert forall i :: 1 <= i < |pairs| ==> pairs[i] == pairs[1..][i - 1];
    }
  }

  /** With every value present, the query holds one `key=value` pair per entry, in order. */
  lemma {:induction false} QueryPairsAllPresent(pairs: seq<(string, Option<string>)>, encode: string -> string)
    requires forall i :: 0 <= i < |pairs| ==> pairs[i].1.Some?
    ensures |QueryPairs(pairs, encode)| == |pairs|
    ensures forall i :: 0 <= i < |pairs| ==>
      QueryPairs(pairs, encode)[i] == encode(pairs[i].0) + "=" + encode(pairs[i].1.value)
  {
    if |pairs| > 0 {
      QueryPairsAllPresent(pairs[1..], encode);
      assert forall i :: 1 <= i < |pairs| ==> pairs[i] == pairs[1..][i - 1];
    }
  }
}

=== FILE: php_array.dfy ===
/**
 * Decoded PHP values as they travel through `json_encode`, and the one array
 * function the request builders depend on: `array_filter` without a callback,
 * which keeps an entry only when its value is not falsy.
 */
module PhpArray {
  import opened Common

  /** A PHP value; `Obj` is an associative array, `List` a list. */
  datatype Value =
    | Null
    | Bool(b: bool)
    | Int(i: int)
    | Str(s: string)
    | List(items: seq<Value>)
    | Obj(fields: seq<Field>)

  /** One `key => value` entry of an associative array. */
  datatype Field = Field(key: string, value: Value)

  /** PHP's falsy values: null, false, 0, '', '0' and the empty array. */
  predicate Falsy(v: Value)
  {
    match v
    case Null => true
    case Bool(b) => !b
    case Int(i) => i == 0
    case Str(s) => s == "" || s == "0"
    case List(items) => |items| == 0
    case Obj(fields) => |fields| == 0
  }

  /** An optional string argument: a missing one is `null`. */
  function OptStr(s: Option<string>): Value
  {
    match s
    case Some(t) => Str(t)
    case None => Null
  }

  /** An optional array argument: a missing one is `null`. */
  function OptList(xs: Option<seq<Value>>): Value
  {
    match xs
    case Some(items) => List(items)
    case None => Null
  }

  function Keys(fields: seq<Field>): seq<string>
  {
    seq(|fields|, i requires 0 <= i < |fields| => fields[i].key)
  }

  /** PHP array keys are unique. */
  predicate DistinctKeys(fields: seq<Field>)
  {
    forall i, j :: 0 <= i < j < |fields| ==> fields[i].key != fields[j].key
  }

  /**
   * A cheap sufficient check for `DistinctKeys` on an array literal: keys of
   * equal length already differ in one of their first two letters.
   */
  predicate KeysDifferEarly(fields: seq<Field>)
  {
    forall i, j :: 0 <= i < j < |fields| ==>
      || |fields[i].key| != |fields[j].key|
      || (|fields[i].key| > 1 && (fields[i].key[0] != fields[j].key[0] || fields[i].key[1] != fields[j].key[1]))
  }

  lemma KeysDifferEarlyDistinct(fields: seq<Field>)
    requires KeysDifferEarly(fields)
    ensures DistinctKeys(fields)
  {
  }

  /** `$array[$key] ?? null`, told apart from a present `null`. */
  function Get(fields: seq<Field>, key: string): Option<Value>
  {
    if |fields| == 0 then None
    else if fields[0].key == key then Some(fields[0].value)
    else Get(fields[1..], key)
  }

  /** `array_filter($fields)`: drop the falsy entries, keep keys and order. */
  function ArrayFilter(fields: seq<Field>): (kept: seq<Field>)
    ensures |kept| <= |fields|
  {
    if |fields| == 0 then []
    else if Falsy(fields[0].value) then ArrayFilter(fields[1..])
    else [fields[0]] + ArrayFilter(fields[1..])
  }

  /** An entry survives `array_filter` exactly when it was there with a non-falsy value. */
  lemma {:induction false} ArrayFilterMembers(fields: seq<Field>)
    ensures forall f :: f in ArrayFilter(fields) <==> f in fields && !Falsy(f.value)
  {
    if |fields| > 0 {
      ArrayFilterMembers(fields[1..]);
      assert fields == [fields[0]] + fields[1..];
    }
  }

  lemma {:induction false} GetSome(fields: seq<Field>, key: string)
    ensures Get(fields, key).Some? <==> key in Keys(fields)
    ensures Get(fields, key).Some? ==> Field(key, Get(fields, key).value) in fields
  {
    if |fields| > 0 {
      GetSome(fields[1..], key);
      assert Keys(fields) == [fields[0].key] + Keys(fields[1..]);
    }
  }

  lemma {:induction false} GetOfMember(fields: seq<Field>, f: Field)
    requires DistinctKeys(fields)
    requires f in fields
    ensures Get(fields, f.key) == Some(f.value)
  {
    if fields[0] != f {
      assert fields[0].key != f.key by {
        var j :| 0 <= j < |fields| && fields[j] == f;
        assert j > 0;
      }
      GetOfMember(fields[1..], f);
    }
  }

  /** Reading the key of the entry at position `i` gives that entry's value. */
  lemma GetAt(fields: seq<Field>, i: int)
    requires DistinctKeys(fields)
    requires 0 <= i < |fields|
    ensures Get(fields, fields[i].key) == Some(fields[i].value)
  {
    GetOfMember(fields, fields[i]);
  }

  /** A key no entry carries reads as absent. */
  lemma GetAbsent(fields: seq<Field>, key: string)
    requires forall i :: 0 <= i < |fields| ==> fields[i].key != key
    ensures Get(fields, key) == None
  {
    GetSome(fields, key);
  }

  lemma {:induction false} ArrayFilterDistinct(fields: seq<Field>)
    requires DistinctKeys(fields)
    ensures DistinctKeys(ArrayFilter(fields))
  {
    if |fields| > 0 {
      ArrayFilterDistinct(fields[1..]);
      ArrayFilterMembers(fields[1..]);
      var rest := ArrayFilter(fields[1..]);
      if !Falsy(fields[0].value) {
        forall j | 0 <= j < |rest|
          ensures rest[j].key != fields[0].key
        {
          assert rest[j] in fields[1..];
          var k :| 0 <= k < |fields[1..]| && fields[1..][k] == rest[j];
          assert fields[k + 1] == rest[j];
        }
      }
    }
  }

  /** With unique keys, the first entry's key does not occur again. */
  lemma HeadKeyAbsentFromTail(fields: seq<Field>)
    requires DistinctKeys(fields)
    requires |fields| > 0
    ensures Get(fields[1..], fields[0].key) == None
  {
    var tail := fields[1..];
    assert forall j :: 0 <= j < |tail| ==> Keys(tail)[j] == fields[j + 1].key;
    assert fields[0].key !in Keys(tail);
    GetSome(tail, fields[0].key);
  }

  /**
   * Reading a key back after `array_filter`: present with the same value
   * exactly when it was present with a non-falsy value.
   */
  lemma {:induction false} GetArrayFilter(fields: seq<Field>, key: string)
    requires DistinctKeys(fields)
    ensures Get(ArrayFilter(fields), key) ==
              (if Get(fields, key).Some? && !Falsy(Get(fields, key).value)
               then Get(fields, key) else None)
  {
    if |fields| > 0 {
      GetArrayFilter(fields[1..], key);
      if fields[0].key == key {
        HeadKeyAbsentFromTail(fields);
      }
    }
  }

  /** Filtering twice is filtering once. */
  lemma {:induction false} ArrayFilterIdempotent(fields: seq<Field>)
    ensures ArrayFilter(ArrayFilter(fields)) == ArrayFilter(fields)
  {
    if |fields| > 0 {
      ArrayFilterIdempotent(fields[1..]);
    }
  }

  /** The filtered array is empty, and so itself falsy, exactly when every value was falsy. */
  lemma {:induction false} ArrayFilterEmpty(fields: seq<Field>)
    ensures |ArrayFilter(fields)| == 0 <==> forall i :: 0 <= i < |fields| ==> Falsy(fields[i].value)
  {
    if |fields| > 0 {
      ArrayFilterEmpty(fields[1..]);
      assert forall i :: 1 <= i < |fields| ==> fields[i] == fields[1..][i - 1];
    }
  }
}

=== FILE: php_string.dfy ===
/**
 * The PHP string functions the core relies on: `explode` (with and without a
 * limit), `implode`, reading a possibly missing list index, ASCII case
 * folding as PHP's method lookup does it, and integer-to-decimal conversion.
 */
module PhpString {
  import opened Common

  /** `explode($sep, $s)`: the pieces between every occurrence of `sep`. */
  function Explode(s: string, sep: char): (parts: seq<string>)
    ensures |parts| >= 1
    ensures forall i :: 0 <= i < |parts| ==> sep !in parts[i]
    decreases |s|
  {
    if |s| == 0 then [""]
    else
      var rest := Explode(s[1..], sep);
      if s[0] == sep then [""] + rest
      else [[s[0]] + rest[0]] + rest[1..]
  }

  /** `implode($glue, $parts)`. */
  function Implode(glue: string, parts: seq<string>): string
  {
    if |parts| == 0 then ""
    else if |parts| == 1 then parts[0]
    else parts[0] + glue + Implode(glue, parts[1..])
  }

  /** `explode($sep, $s, 2)`: split at the first `sep` only. */
  function SplitFirst(s: string, sep: char): (parts: seq<string>)
    ensures 1 <= |parts| <= 2
    ensures sep !in parts[0]
    decreases |s|
  {
    if |s| == 0 then [""]
    else if s[0] == sep then ["", s[1..]]
    else
      var rest := SplitFirst(s[1..], sep);
      [[s[0]] + rest[0]] + rest[1..]
  }

  /** `$parts[$i]`: an undefined offset reads as `null`. */
  function Nth(parts: seq<string>, i: nat): Option<string>
  {
    if i < |parts| then Some(parts[i]) else None
  }

  function LowerChar(c: char): char
  {
    if 'A' <= c <= 'Z' then (c as int + 32) as char else c
  }

  /** ASCII lower-casing, the folding PHP applies to method names. */
  function Lower(s: string): string
  {
    seq(|s|, i requires 0 <= i < |s| => LowerChar(s[i]))
  }

  /** Lower-casing an already lower-cased name changes nothing. */
  lemma LowerIdempotent(s: string)
    ensures Lower(Lower(s)) == Lower(s)
  {
    assert forall i :: 0 <= i < |s| ==> LowerChar(LowerChar(s[i])) == LowerChar(s[i]);
  }

  function Digit(d: nat): char
    requires d < 10
  {
    "0123456789"[d]
  }

  /** The decimal text PHP produces when a non-negative int meets `.`. */
  function NatToString(n: nat): (r: string)
    ensures |r| >= 1
    ensures forall i :: 0 <= i < |r| ==> '0' <= r[i] <= '9'
  {
    if n < 10 then [Digit(n)] else NatToString(n / 10) + [Digit(n % 10)]
  }

  /** The decimal text of any PHP int, with a leading `-` when negative. */
  function IntToString(n: int): string
  {
    if n < 0 then "-" + NatToString(-n) else NatToString(n)
  }

  /** Reads back a run of decimal digits; the partner of `NatToString`. */
  function ParseDigits(s: string): nat
    requires forall i :: 0 <= i < |s| ==> '0' <= s[i] <= '9'
  {
    if |s| == 0 then 0
    else ParseDigits(s[..|s| - 1]) * 10 + (s[|s| - 1] as int - '0' as int)
  }

  lemma {:induction false} ParseNatToString(n: nat)
    ensures ParseDigits(NatToString(n)) == n
  {
    var r := NatToString(n);
    if n >= 10 {
      ParseNatToString(n / 10);
      assert r[..|r| - 1] == NatToString(n / 10);
    }
  }

  /** Decimal text never contains a path or query separator. */
  lemma NatToStringHasNoSlash(n: nat)
    ensures '/' !in NatToString(n)
  {
  }

  /** The decimal text of any int has no `/` either, so it is a single path segment. */
  lemma IntToStringHasNoSlash(n: int)
    ensures '/' !in IntToString(n)
  {
    NatToStringHasNoSlash(if n < 0 then -n else n);
  }

  /** Each part preceded by the glue: what follows the first part in an implode. */
  function GlueEach(glue: string, parts: seq<string>): string
  {
    if |parts| == 0 then "" else glue + parts[0] + GlueEach(glue, parts[1..])
  }

  lemma {:induction false} ImplodeAsGlueEach(glue: string, parts: seq<string>)
    requires |parts| >= 1
    ensures Implode(glue, parts) == parts[0] + GlueEach(glue, parts[1..])
    decreases |parts|
  {
    if |parts| > 1 {
      ImplodeAsGlueEach(glue, parts[1..]);
      assert parts[1..][1..] == parts[2..];
    }
  }

  lemma GlueEachOne(glue: string, a: string)
    ensures GlueEach(glue, [a]) == glue + a
  {
    assert [a][1..] == [];
  }

  lemma GlueEachTwo(glue: string, a: string, b: string)
    ensures GlueEach(glue, [a, b]) == glue + a + glue + b
  {
    assert [a, b][1..] == [b];
    GlueEachOne(glue, b);
  }

  lemma GlueEachThree(glue: string, a: string, b: string, c: string)
    ensures GlueEach(glue, [a, b, c]) == glue + a + glue + b + glue + c
  {
    assert [a, b, c][1..] == [b, c];
    GlueEachTwo(glue, b, c);
  }

  lemma {:induction false} GlueEachAppend(glue: string, a: seq<string>, b: seq<string>)
    ensures GlueEach(glue, a + b) == GlueEach(glue, a) + GlueEach(glue, b)
    decreases |a|
  {
    if |a| == 0 {
      assert a + b == b;
    } else {
      GlueEachAppend(glue, a[1..], b);
      assert (a + b)[1..] == a[1..] + b;
    }
  }

  /** Appending one part to a non-empty implode appends the glue and that part. */
  lemma {:induction false} ImplodeSnoc(glue: string, parts: seq<string>, x: string)
    requires |parts| >= 1
    ensures Implode(glue, parts + [x]) == Implode(glue, parts) + glue + x
    decreases |parts|
  {
    if |parts| > 1 {
      ImplodeSnoc(glue, parts[1..], x);
      assert (parts + [x])[1..] == parts[1..] + [x];
    } else {
      assert parts + [x] == [parts[0], x];
      assert [parts[0], x][1..] == [x];
    }
  }

  // ---------------------------------------------------------------------
  // explode and implode are inverse to each other

  lemma {:induction false} ImplodeExplode(s: string, sep: char)
    ensures Implode([sep], Explode(s, sep)) == s
    decreases |s|
  {
    if |s| > 0 {
      var rest := Explode(s[1..], sep);
      ImplodeExplode(s[1..], sep);
      if s[0] == sep {
        assert Implode([sep], [""] + rest) == "" + [sep] + Implode([sep], rest);
      } else if |rest| == 1 {
        assert [s[0]] + rest[0] == s;
      } else {
        var parts := [[s[0]] + rest[0]] + rest[1..];
        assert parts[1..] == rest[1..];
        assert Implode([sep], rest) == rest[0] + [sep] + Implode([sep], rest[1..]);
        assert Implode([sep], parts) == [s[0]] + rest[0] + [sep] + Implode([sep], rest[1..]);
        assert s == [s[0]] + s[1..];
      }
    }
  }

  lemma {:induction false} ExplodeNoSep(s: string, sep: char)
    requires sep !in s
    ensures Explode(s, sep) == [s]
    decreases |s|
  {
    if |s| > 0 {
      ExplodeNoSep(s[1..], sep);
      assert [s[0]] + s[1..] == s;
    }
  }

  /** Splitting at one separator splits the pieces on either side apart. */
  lemma {:induction false} ExplodeAround(a: string, b: string, sep: char)
    ensures Explode(a + [sep] + b, sep) == Explode(a, sep) + Explode(b, sep)
    decreases |a|
  {
    var s := a + [sep] + b;
    if |a| == 0 {
      assert s == [sep] + b;
      assert s[1..] == b;
    } else {
      assert s[1..] == a[1..] + [sep] + b;
      ExplodeAround(a[1..], b, sep);
    }
  }

  lemma {:induction false} ExplodeImplode(parts: seq<string>, sep: char)
    requires |parts| >= 1
    requires forall i :: 0 <= i < |parts| ==> sep !in parts[i]
    ensures Explode(Implode([sep], parts), sep) == parts
    decreases |parts|
  {
    if |parts| == 1 {
      ExplodeNoSep(parts[0], sep);
    } else {
      ExplodeImplode(parts[1..], sep);
      ExplodeAround(parts[0], Implode([sep], parts[1..]), sep);
      ExplodeNoSep(parts[0], sep);
      assert [parts[0]] + parts[1..] == parts;
    }
  }

  /** Prefixing `p + sep` adds the pieces of `p` in front of those of `s`. */
  lemma ExplodePrefix(p: string, s: string, sep: char)
    requires sep !in p
    ensures Explode(p + [sep] + s, sep) == [p] + Explode(s, sep)
  {
    ExplodeAround(p, s, sep);
    ExplodeNoSep(p, sep);
  }

  /** Two separator-free pieces in front split off as two parts. */
  lemma ExplodeTwoPrefixes(a: string, b: string, s: string, sep: char)
    requires sep !in a && sep !in b
    ensures Explode(a + [sep] + b + [sep] + s, sep) == [a, b] + Explode(s, sep)
  {
    ExplodeAround(a + [sep] + b, s, sep);
    ExplodeAround(a, b, sep);
    ExplodeNoSep(a, sep);
    ExplodeNoSep(b, sep);
  }

  /** `s` finishes with `suffix`. */
  predicate EndsWith(s: string, suffix: string)
  {
    |suffix| <= |s| && s[|s| - |suffix|..] == suffix
  }

  lemma EndsWithConcat(prefix: string, suffix: string)
    ensures EndsWith(prefix + suffix, suffix)
  {
    assert (prefix + suffix)[|prefix|..] == suffix;
  }

  // ---------------------------------------------------------------------
  // explode with limit 2 splits exactly at the first separator

  lemma {:induction false} SplitFirstAt(a: string, b: string, sep: char)
    requires sep !in a
    ensures SplitFirst(a + [sep] + b, sep) == [a, b]
    decreases |a|
  {
    var s := a + [sep] + b;
    if |a| == 0 {
      assert s[1..] == b;
    } else {
      assert s[1..] == a[1..] + [sep] + b;
      SplitFirstAt(a[1..], b, sep);
      assert [a[0]] + a[1..] == a;
    }
  }

  lemma {:induction false} SplitFirstNone(s: string, sep: char)
    requires sep !in s
    ensures SplitFirst(s, sep) == [s]
    decreases |s|
  {
    if |s| > 0 {
      SplitFirstNone(s[1..], sep);
      assert [s[0]] + s[1..] == s;
    }
  }

  /** When two pieces come back, they are the text around the first separator. */
  lemma {:induction false} SplitFirstRejoins(s: string, sep: char)
    ensures |SplitFirst(s, sep)| == 2 ==> s == SplitFirst(s, sep)[0] + [sep] + SplitFirst(s, sep)[1]
    ensures |SplitFirst(s, sep)| == 1 ==> sep !in s && SplitFirst(s, sep)[0] == s
    decreases |s|
  {
    if |s| > 0 && s[0] != sep {
      SplitFirstRejoins(s[1..], sep);
      assert s == [s[0]] + s[1..];
    }
  }
}

=== FILE: pull_requests.dfy ===
/**
 * The pull-request client: the URL each call targets (built with `implode('/',
 * …)` below the API root), the JSON body of `create`/`update` and `merge`,
 * the `$is_update` flag that turns `create` into a PATCH, and how `isMerged`
 * and `merge` turn the HTTP status into a result or an exception.
 */
module PullRequests {
  import opened Common
  import opened PhpString
  import opened PhpArray
  import Http

  /** The client's `$api_url` and its `$is_update` flag. */
  datatype Client = Client(apiUrl: string, isUpdate: bool)

  /** A request made and the response body handed back unchanged. */
  datatype Exchange = Exchange(request: Http.HttpRequest, result: string)

  // -----------------------------------------------------------------------
  // URLs

  /** `$api_url . implode('/', ['/repos', $username, $repo_name, …tail])`. */
  function RepoUrl(apiUrl: string, username: string, repoName: string, tail: seq<string>): string
  {
    apiUrl + Implode("/", ["/repos", username, repoName] + tail)
  }

  /** The URL as text: the repository, then each further part after its own `/`. */
  lemma RepoUrlText(apiUrl: string, username: string, repoName: string, tail: seq<string>)
    ensures RepoUrl(apiUrl, username, repoName, tail) == apiUrl + "/repos/" + username + "/" + repoName + GlueEach("/", tail)
  {
    var parts := ["/repos", username, repoName] + tail;
    ImplodeAsGlueEach("/", parts);
    assert parts[1..] == [username, repoName] + tail;
    GlueEachAppend("/", [username, repoName], tail);
    assert GlueEach("/", [username, repoName]) == "/" + username + "/" + repoName by {
      assert [username, repoName][1..] == [repoName];
      assert [repoName][1..] == [];
    }
  }

  /** Each further path part is joined on with one `/`. */
  lemma RepoUrlExtends(apiUrl: string, username: string, repoName: string, tail: seq<string>, x: string)
    ensures RepoUrl(apiUrl, username, repoName, tail + [x]) == RepoUrl(apiUrl, username, repoName, tail) + "/" + x
  {
    RepoUrlText(apiUrl, username, repoName, tail + [x]);
    RepoUrlText(apiUrl, username, repoName, tail);
    GlueEachAppend("/", tail, [x]);
    assert GlueEach("/", [x]) == "/" + x by {
      assert [x][1..] == [];
    }
  }

  /** The pulls collection, as `list` addresses it. */
  function PullsUrl(apiUrl: string, username: string, repoName: string): string
  {
    RepoUrl(apiUrl, username, repoName, ["pulls"])
  }

  /** One pull request, as `get` addresses it. */
  function PullUrl(apiUrl: string, username: string, repoName: string, prNum: int): string
  {
    RepoUrl(apiUrl, username, repoName, ["pulls", IntToString(prNum)])
  }

  /** Below the API root the collection path reads `/repos/<owner>/<repo>/pulls`. */
  lemma PullsUrlText(apiUrl: string, username: string, repoName: string)
    ensures PullsUrl(apiUrl, username, repoName) == apiUrl + "/repos/" + username + "/" + repoName + "/pulls"
  {
    RepoUrlText(apiUrl, username, repoName, ["pulls"]);
    assert GlueEach("/", ["pulls"]) == "/pulls" by {
      assert ["pulls"][1..] == [];
    }
  }

  /** A single pull request lives directly below the collection. */
  lemma PullUrlBelowPulls(apiUrl: string, username: string, repoName: string, prNum: int)
    ensures PullUrl(apiUrl, username, repoName, prNum) == PullsUrl(apiUrl, username, repoName) + "/" + IntToString(prNum)
  {
    RepoUrlExtends(apiUrl, username, repoName, ["pulls"], IntToString(prNum));
    assert ["pulls"] + [IntToString(prNum)] == ["pulls", IntToString(prNum)];
  }

  // -----------------------------------------------------------------------
  // Reading calls

  /** The `http_build_query` arguments of `list`; a missing filter is `null` and left out. */
  function ListQuery(state: Option<string>, head: Option<string>, base: Option<string>,
                     sort: Option<string>, direction: Option<string>): seq<(string, Option<string>)>
  {
    [("state", state), ("head", head), ("base", base), ("sort", sort), ("direction", direction)]
  }

  /** `list`: GET the collection with whichever filters were given. */
  function List(c: Client, username: string, repoName: string, state: Option<string>, head: Option<string>,
                base: Option<string>, sort: Option<string>, direction: Option<string>,
                encode: string -> string): (req: Http.HttpRequest)
    ensures req.verb == Http.Get && req.body.None? && req.accept.None?
    ensures req.url == PullsUrl(c.apiUrl, username, repoName) + "?" + Http.BuildQuery(ListQuery(state, head, base, sort, direction), encode)
  {
    var url := PullsUrl(c.apiUrl, username, repoName) + "?" + Http.BuildQuery(ListQuery(state, head, base, sort, direction), encode);
    Http.HttpRequest(Http.Get, url, None, None)
  }

  /** With no filter given the query string is empty: the URL is the collection and a bare `?`. */
  lemma ListWithoutFilters(c: Client, username: string, repoName: string, encode: string -> string)
    ensures List(c, username, repoName, None, None, None, None, None, encode).url == PullsUrl(c.apiUrl, username, repoName) + "?"
  {
    Http.QueryPairsCount(ListQuery(None, None, None, None, None), encode);
  }

  /** With every filter given the query carries all five pairs, in the order `state`, `head`, `base`, `sort`, `direction`. */
  lemma ListWithAllFilters(c: Client, username: string, repoName: string, state: string, head: string, base: string,
                           sort: string, direction: string, encode: string -> string)
    ensures List(c, username, repoName, Some(state), Some(head), Some(base), Some(sort), Some(direction), encode).url ==
      PullsUrl(c.apiUrl, username, repoName) + "?" + Implode("&", [
        encode("state") + "=" + encode(state),
        encode("head") + "=" + encode(head),
        encode("base") + "=" + encode(base),
        encode("sort") + "=" + encode(sort),
        encode("direction") + "=" + encode(direction)])
  {
    var q := ListQuery(Some(state), Some(head), Some(base), Some(sort), Some(direction));
    Http.QueryPairsAllPresent(q, encode);
    assert Http.QueryPairs(q, encode) == [
      encode("state") + "=" + encode(state),
      encode("head") + "=" + encode(head),
      encode("base") + "=" + encode(base),
      encode("sort") + "=" + encode(sort),
      encode("direction") + "=" + encode(direction)];
  }

  /** `get`: GET one pull request. */
  function GetPull(c: Client, username: string, repoName: string, prNum: int): (req: Http.HttpRequest)
    ensures req.verb == Http.Get && req.body.None?
    ensures req.url == PullsUrl(c.apiUrl, username, repoName) + "/" + IntToString(prNum)
  {
    PullUrlBelowPulls(c.apiUrl, username, repoName, prNum);
    Http.HttpRequest(Http.Get, PullUrl(c.apiUrl, username, repoName, prNum), None, None)
  }

  /** `listCommits`: GET the commits of one pull request. */
  function ListCommits(c: Client, username: string, repoName: string, prNum: int): (req: Http.HttpRequest)
    ensures req.verb == Http.Get && req.body.None?
    ensures req.url == PullUrl(c.apiUrl, username, repoName, prNum) + "/commits"
  {
    RepoUrlExtends(c.apiUrl, username, repoName, ["pulls", IntToString(prNum)], "commits");
    assert ["pulls", IntToString(prNum)] + ["commits"] == ["pulls", IntToString(prNum), "commits"];
    Http.HttpRequest(Http.Get, RepoUrl(c.apiUrl, username, repoName, ["pulls", IntToString(prNum), "commits"]), None, None)
  }

  /** `listFiles` as written: the parts `/pulls` and `/files` carry their own slash. */
  function ListFilesUrl(apiUrl: string, username: string, repoName: string, prNum: int): string
  {
    RepoUrl(apiUrl, username, repoName, ["/pulls", IntToString(prNum), "/files"])
  }

  /** `listFiles`: GET the files of one pull request. */
  function ListFiles(c: Client, username: string, repoName: string, prNum: int): (req: Http.HttpRequest)
    ensures req.verb == Http.Get && req.body.None?
    ensures req.url == ListFilesUrl(c.apiUrl, username, repoName, prNum)
  {
    Http.HttpRequest(Http.Get, ListFilesUrl(c.apiUrl, username, repoName, prNum), None, None)
  }

  /** The files listing below the pull request, as `listCommits` is. */
  function ListFilesUrlIntended(apiUrl: string, username: string, repoName: string, prNum: int): (url: string)
    ensures url == PullUrl(apiUrl, username, repoName, prNum) + "/files"
  {
    RepoUrlExtends(apiUrl, username, repoName, ["pulls", IntToString(prNum)], "files");
    assert ["pulls", IntToString(prNum)] + ["files"] == ["pulls", IntToString(prNum), "files"];
    RepoUrl(apiUrl, username, repoName, ["pulls", IntToString(prNum), "files"])
  }

  /** As written the files URL has two doubled slashes, so two more characters than the intended one. */
  lemma ListFilesUrlDoubledSlashes(apiUrl: string, username: string, repoName: string, prNum: int)
    ensures ListFilesUrl(apiUrl, username, repoName, prNum) ==
      apiUrl + "/repos/" + username + "/" + repoName + "//pulls/" + IntToString(prNum) + "//files"
    ensures ListFilesUrlIntended(apiUrl, username, repoName, prNum) ==
      apiUrl + "/repos/" + username + "/" + repoName + "/pulls/" + IntToString(prNum) + "/files"
    ensures |ListFilesUrl(apiUrl, username, repoName, prNum)| == |ListFilesUrlIntended(apiUrl, username, repoName, prNum)| + 2
  {
    var n := IntToString(prNum);
    RepoUrlText(apiUrl, username, repoName, ["/pulls", n, "/files"]);
    GlueEachThree("/", "/pulls", n, "/files");
    RepoUrlText(apiUrl, username, repoName, ["pulls", n, "files"]);
    GlueEachThree("/", "pulls", n, "files");
  }

  // -----------------------------------------------------------------------
  // create and update

  /**
   * The `create` body as written: title, body (`null` when absent), head,
   * base and `maintainer_can_modify`; with a non-zero `$from_issue` the
   * first two entries are shifted off, and the issue number is written to
   * an unrelated local array, so it never reaches the body.
   */
  function CreatePayload(fromIssue: int, title: string, head: string, base: string,
                         body: Option<string>, maintainerCanModify: bool): (fields: seq<Field>)
    ensures fromIssue == 0 ==> Keys(fields) == ["title", "body", "head", "base", "maintainer_can_modify"]
    ensures fromIssue != 0 ==> Keys(fields) == ["head", "base", "maintainer_can_modify"]
    ensures Get(fields, "head") == Some(Str(head)) && Get(fields, "base") == Some(Str(base))
    ensures Get(fields, "maintainer_can_modify") == Some(Bool(maintainerCanModify))
    ensures fromIssue == 0 ==> Get(fields, "title") == Some(Str(title)) && Get(fields, "body") == Some(OptStr(body))
  {
    var data := [ Field("title", Str(title)),
                  Field("body", OptStr(body)),
                  Field("head", Str(head)),
                  Field("base", Str(base)),
                  Field("maintainer_can_modify", Bool(maintainerCanModify)) ];
    KeysDifferEarlyDistinct(data);
    if fromIssue != 0 then
      var tail := data[2..];
      GetAt(tail, 0);
      GetAt(tail, 1);
      GetAt(tail, 2);
      tail
    else
      GetAt(data, 0);
      GetAt(data, 1);
      GetAt(data, 2);
      GetAt(data, 3);
      GetAt(data, 4);
      data
  }

  /** As written, a pull request opened from an issue sends neither a title nor the issue number. */
  lemma CreateFromIssueLosesIssue(fromIssue: int, title: string, head: string, base: string,
                                  body: Option<string>, maintainerCanModify: bool)
    requires fromIssue != 0
    ensures Get(CreatePayload(fromIssue, title, head, base, body, maintainerCanModify), "issue").None?
    ensures Get(CreatePayload(fromIssue, title, head, base, body, maintainerCanModify), "title").None?
  {
    var fs := CreatePayload(fromIssue, title, head, base, body, maintainerCanModify);
    assert forall i :: 0 <= i < |fs| ==> fs[i].key == Keys(fs)[i];
    GetAbsent(fs, "issue");
    GetAbsent(fs, "title");
  }

  /**
   * The body the issue number was meant for: with a non-zero `$from_issue`
   * the title and body give way to `issue`.
   */
  function CreatePayloadIntended(fromIssue: int, title: string, head: string, base: string,
                                 body: Option<string>, maintainerCanModify: bool): (fields: seq<Field>)
    ensures fromIssue == 0 ==> fields == CreatePayload(fromIssue, title, head, base, body, maintainerCanModify)
    ensures fromIssue != 0 ==> fields == [Field("issue", Int(fromIssue))] + CreatePayload(fromIssue, title, head, base, body, maintainerCanModify)
  {
    var data := CreatePayload(0, title, head, base, body, maintainerCanModify);
    if fromIssue != 0 then [Field("issue", Int(fromIssue))] + data[2..] else data
  }

  /** The intended body names the issue exactly when one is given, and the title exactly when none is. */
  lemma CreatePayloadIntendedNamesIssue(fromIssue: int, title: string, head: string, base: string,
                                        body: Option<string>, maintainerCanModify: bool)
    ensures Get(CreatePayloadIntended(fromIssue, title, head, base, body, maintainerCanModify), "issue") ==
      (if fromIssue != 0 then Some(Int(fromIssue)) else None)
    ensures Get(CreatePayloadIntended(fromIssue, title, head, base, body, maintainerCanModify), "title") ==
      (if fromIssue != 0 then None else Some(Str(title)))
  {
    var fs := CreatePayloadIntended(fromIssue, title, head, base, body, maintainerCanModify);
    var rest := CreatePayload(fromIssue, title, head, base, body, maintainerCanModify);
    assert forall i :: 0 <= i < |rest| ==> rest[i].key == Keys(rest)[i];
    if fromIssue != 0 {
      GetAbsent(rest, "title");
      assert fs[1..] == rest;
    } else {
      GetAbsent(rest, "issue");
    }
  }

  /** `create` as written posts to the parts `['/repos', …, '/pulls']`, a doubled slash. */
  function CreateUrl(apiUrl: string, username: string, repoName: string): string
  {
    RepoUrl(apiUrl, username, repoName, ["/pulls"])
  }

  /** The collection `list` reads, which is where GitHub creates pull requests. */
  function CreateUrlIntended(apiUrl: string, username: string, repoName: string): (url: string)
    ensures url == apiUrl + "/repos/" + username + "/" + repoName + "/pulls"
    ensures url == PullsUrl(apiUrl, username, repoName)
  {
    PullsUrlText(apiUrl, username, repoName);
    RepoUrl(apiUrl, username, repoName, ["pulls"])
  }

  /**
   * As written the create URL is not the collection's: it has an empty
   * path segment between the repository and `pulls`.
   */
  lemma CreateUrlDoubledSlash(apiUrl: string, username: string, repoName: string)
    requires '/' !in username && '/' !in repoName
    ensures CreateUrl(apiUrl, username, repoName) == apiUrl + "/repos/" + username + "/" + repoName + "//pulls"
    ensures Explode(CreateUrl("", username, repoName), '/') == ["", "repos", username, repoName, "", "pulls"]
    ensures Explode(CreateUrlIntended("", username, repoName), '/') == ["", "repos", username, repoName, "pulls"]
  {
    RepoUrlText(apiUrl, username, repoName, ["/pulls"]);
    GlueEachOne("/", "/pulls");
    RepoUrlSegments(username, repoName, ["/pulls"], ["", "pulls"]);
    RepoUrlSegments(username, repoName, ["pulls"], ["pulls"]);
  }

  /**
   * Below an empty API root, a repository URL whose tail parts imploded
   * read as `segments` splits into `repos`, owner, repository and those
   * segments.
   */
  lemma RepoUrlSegments(username: string, repoName: string, tail: seq<string>, segments: seq<string>)
    requires '/' !in username && '/' !in repoName
    requires |segments| >= 1 && forall i :: 0 <= i < |segments| ==> '/' !in segments[i]
    requires GlueEach("/", tail) == GlueEach("/", segments)
    ensures Explode(RepoUrl("", username, repoName, tail), '/') == ["", "repos", username, repoName] + segments
  {
    var parts := ["", "repos", username, repoName] + segments;
    RepoUrlAsImplode(username, repoName, tail, segments);
    SlashFreeParts(username, repoName, segments);
    ExplodeImplode(parts, '/');
  }

  /** The repository URL below an empty root is the implosion of its segments. */
  lemma RepoUrlAsImplode(username: string, repoName: string, tail: seq<string>, segments: seq<string>)
    requires GlueEach("/", tail) == GlueEach("/", segments)
    ensures Implode("/", ["", "repos", username, repoName] + segments) == RepoUrl("", username, repoName, tail)
  {
    var head := ["repos", username, repoName];
    assert ["", "repos", username, repoName] + segments == [""] + head + segments;
    ImplodeLeadingEmpty("/", head, segments);
    RepoHead(username, repoName);
    RepoUrlText("", username, repoName, tail);
  }

  /** An implode whose first part is empty begins with the glue. */
  lemma ImplodeLeadingEmpty(glue: string, a: seq<string>, b: seq<string>)
    ensures Implode(glue, [""] + a + b) == GlueEach(glue, a) + GlueEach(glue, b)
  {
    var parts := [""] + a + b;
    assert parts[1..] == a + b;
    ImplodeAsGlueEach(glue, parts);
    GlueEachAppend(glue, a, b);
  }

  /** The first three glued parts of a repository path. */
  lemma RepoHead(username: string, repoName: string)
    ensures GlueEach("/", ["repos", username, repoName]) == "/repos/" + username + "/" + repoName
  {
    GlueEachThree("/", "repos", username, repoName);
    assert "/" + "repos" + "/" == "/repos/";
  }

  lemma SlashFreeParts(username: string, repoName: string, segments: seq<string>)
    requires '/' !in username && '/' !in repoName
    requires forall i :: 0 <= i < |segments| ==> '/' !in segments[i]
    ensures forall i :: 0 <= i < |["", "repos", username, repoName] + segments| ==>
      '/' !in (["", "repos", username, repoName] + segments)[i]
  {
    var parts := ["", "repos", username, repoName] + segments;
    forall i | 0 <= i < |parts|
      ensures '/' !in parts[i]
    {
      if i >= 4 {
        assert parts[i] == segments[i - 4];
      }
    }
  }

  /**
   * `create`: with `$is_update` unset, POST the body; with it set (inside
   * `update`), PATCH the same body to the same URL. The response body is
   * returned unchanged. `$from_issue = 0` carries no default here, since
   * required parameters follow it and PHP can never apply it.
   */
  function Create(c: Client, resp: Http.HttpResponse, username: string, repoName: string, fromIssue: int, title: string,
                  head: string, base: string, body: Option<string> := None, maintainerCanModify: bool := true): (x: Exchange)
    ensures x.request.verb == (if c.isUpdate then Http.Patch else Http.Post)
    ensures x.request.url == CreateUrl(c.apiUrl, username, repoName)
    ensures x.request.body == Some(Obj(CreatePayload(fromIssue, title, head, base, body, maintainerCanModify)))
    ensures x.result == resp.body
  {
    var req := Http.HttpRequest(if c.isUpdate then Http.Patch else Http.Post, CreateUrl(c.apiUrl, username, repoName),
                                Some(Obj(CreatePayload(fromIssue, title, head, base, body, maintainerCanModify))), None);
    Exchange(req, resp.body)
  }

  /**
   * `update`: set `$is_update`, run `create` with the same arguments, clear
   * the flag. Returns the client as it is afterwards, and the exchange.
   */
  function Update(c: Client, resp: Http.HttpResponse, username: string, repoName: string, fromIssue: int, title: string,
                  head: string, base: string, body: Option<string> := None, maintainerCanModify: bool := true): (r: (Client, Exchange))
    ensures r.0 == c.(isUpdate := false)
    ensures r.1.request.verb == Http.Patch
    ensures r.1.request.url == CreateUrl(c.apiUrl, username, repoName)
    ensures r.1.request.body == Some(Obj(CreatePayload(fromIssue, title, head, base, body, maintainerCanModify)))
    ensures r.1.result == resp.body
  {
    var updating := c.(isUpdate := true);
    var x := Create(updating, resp, username, repoName, fromIssue, title, head, base, body, maintainerCanModify);
    (updating.(isUpdate := false), x)
  }

  /**
   * `update` differs from a plain `create` only in the verb, and leaves the
   * client so that the next `create` posts again.
   */
  lemma UpdateThenCreate(c: Client, username: string, repoName: string, fromIssue: int, title: string, head: string,
                         base: string, body: Option<string>, maintainerCanModify: bool,
                         r1: Http.HttpResponse, r2: Http.HttpResponse)
    requires !c.isUpdate
    ensures
      var (after, updated) := Update(c, r1, username, repoName, fromIssue, title, head, base, body, maintainerCanModify);
      var created := Create(after, r2, username, repoName, fromIssue, title, head, base, body, maintainerCanModify);
      && created.request.verb == Http.Post
      && updated.request == created.request.(verb := Http.Patch)
  {
  }

  // -----------------------------------------------------------------------
  // isMerged and merge

  /** The merge-status URL, the same one `merge` is meant to PUT to. */
  function MergeStatusUrl(apiUrl: string, username: string, repoName: string, prNum: int): (url: string)
    ensures url == PullUrl(apiUrl, username, repoName, prNum) + "/merge"
  {
    RepoUrlExtends(apiUrl, username, repoName, ["pulls", IntToString(prNum)], "merge");
    assert ["pulls", IntToString(prNum)] + ["merge"] == ["pulls", IntToString(prNum), "merge"];
    RepoUrl(apiUrl, username, repoName, ["pulls", IntToString(prNum), "merge"])
  }

  /**
   * `isMerged`: 204 means merged; 404, which is also how GitHub answers for
   * a pull request that is not merged, throws "not found"; any other status
   * throws code 500. It never returns `false`.
   */
  function IsMerged(c: Client, username: string, repoName: string, prNum: int, resp: Http.HttpResponse)
    : (r: (Http.HttpRequest, Result<bool>))
    ensures r.0.verb == Http.Get && r.0.url == MergeStatusUrl(c.apiUrl, username, repoName, prNum)
    ensures r.1.Ok? <==> resp.code == 204
    ensures r.1.Ok? ==> r.1.value
    ensures r.1.Err? ==> r.1.fault.code == (if resp.code == 404 then 404 else 500)
  {
    var req := Http.HttpRequest(Http.Get, MergeStatusUrl(c.apiUrl, username, repoName, prNum), None, None);
    if resp.code == 204 then (req, Ok(true))
    else if resp.code == 404 then (req, Err(Fault(404, "This pull_request not found")))
    else (req, Err(Fault(500, "pull_request is merged error")))
  }

  /** The `merge_method` value: 1, 2, 3 become their names; any other int is sent as it is. */
  function MergeMethod(m: int): (v: Value)
    ensures v.Str? <==> 1 <= m <= 3
    ensures !v.Str? ==> v == Int(m)
  {
    if m == 1 then Str("merge")
    else if m == 2 then Str("squash")
    else if m == 3 then Str("rebase")
    else Int(m)
  }

  /** Reads a `merge_method` value back to the caller's int. */
  function MergeMethodCode(v: Value): Option<int>
  {
    match v
    case Str(s) =>
      if s == "merge" then Some(1) else if s == "squash" then Some(2) else if s == "rebase" then Some(3) else None
    case Int(i) => Some(i)
    case _ => None
  }

  /** No two merge methods are sent alike: the value reads back to the int it came from. */
  lemma MergeMethodRoundTrip(m: int)
    ensures MergeMethodCode(MergeMethod(m)) == Some(m)
  {
  }

  /** The `merge` body; a null commit message is sent as `''`. */
  function MergePayload(commitTitle: string, commitMessage: Option<string>, sha: string, mergeMethod: int): (fields: seq<Field>)
    ensures Keys(fields) == ["commit_title", "commit_message", "sha", "merge_method"]
    ensures Get(fields, "commit_title") == Some(Str(commitTitle)) && Get(fields, "sha") == Some(Str(sha))
    ensures Get(fields, "commit_message") == Some(Str(commitMessage.GetOr("")))
    ensures Get(fields, "merge_method") == Some(MergeMethod(mergeMethod))
  {
    var fs := [ Field("commit_title", Str(commitTitle)),
                Field("commit_message", Str(commitMessage.GetOr(""))),
                Field("sha", Str(sha)),
                Field("merge_method", MergeMethod(mergeMethod)) ];
    KeysDifferEarlyDistinct(fs);
    GetAt(fs, 0);
    GetAt(fs, 1);
    GetAt(fs, 2);
    GetAt(fs, 3);
    fs
  }

  /** `merge` as written PUTs to the parts `['/repos', …, '/pulls', $pr_num, 'merge']`. */
  function MergeUrl(apiUrl: string, username: string, repoName: string, prNum: int): string
  {
    RepoUrl(apiUrl, username, repoName, ["/pulls", IntToString(prNum), "merge"])
  }

  /** The URL GitHub merges at: the merge-status URL `isMerged` reads. */
  function MergeUrlIntended(apiUrl: string, username: string, repoName: string, prNum: int): (url: string)
    ensures url == apiUrl + "/repos/" + username + "/" + repoName + "/pulls/" + IntToString(prNum) + "/merge"
    ensures url == MergeStatusUrl(apiUrl, username, repoName, prNum)
  {
    RepoUrlText(apiUrl, username, repoName, ["pulls", IntToString(prNum), "merge"]);
    GlueEachThree("/", "pulls", IntToString(prNum), "merge");
    RepoUrl(apiUrl, username, repoName, ["pulls", IntToString(prNum), "merge"])
  }

  /** As written, `merge` and `isMerged` address different URLs: a doubled slash before `pulls`. */
  lemma MergeUrlDoubledSlash(apiUrl: string, username: string, repoName: string, prNum: int)
    ensures MergeUrl(apiUrl, username, repoName, prNum) ==
      apiUrl + "/repos/" + username + "/" + repoName + "//pulls/" + IntToString(prNum) + "/merge"
    ensures MergeStatusUrl(apiUrl, username, repoName, prNum) ==
      apiUrl + "/repos/" + username + "/" + repoName + "/pulls/" + IntToString(prNum) + "/merge"
    ensures |MergeUrl(apiUrl, username, repoName, prNum)| == |MergeStatusUrl(apiUrl, username, repoName, prNum)| + 1
  {
    var n := IntToString(prNum);
    RepoUrlText(apiUrl, username, repoName, ["/pulls", n, "merge"]);
    GlueEachThree("/", "/pulls", n, "merge");
    RepoUrlText(apiUrl, username, repoName, ["pulls", n, "merge"]);
    GlueEachThree("/", "pulls", n, "merge");
  }

  /**
   * `merge`: PUT the body; 200 returns `true`, 405 and 409 throw their fixed
   * messages, any other status throws the response body. Whatever is thrown
   * carries the HTTP status as its code.
   */
  function Merge(c: Client, resp: Http.HttpResponse, username: string, repoName: string, prNum: int, commitTitle: string,
                 commitMessage: Option<string>, sha: string, mergeMethod: int := 1)
    : (r: (Http.HttpRequest, Result<bool>))
    ensures r.0.verb == Http.Put && r.0.url == MergeUrl(c.apiUrl, username, repoName, prNum)
    ensures r.0.body == Some(Obj(MergePayload(commitTitle, commitMessage, sha, mergeMethod)))
    ensures r.1 == Ok(true) <==> resp.code == 200
    ensures resp.code != 200 ==> r.1.Err?
    ensures r.1.Err? ==> r.1.fault.code == resp.code
    ensures resp.code == 405 ==> r.1.fault.message == "merge cannot be performed"
    ensures resp.code == 409 ==> r.1.fault.message == "sha was provided and pull request head did not match"
    ensures r.1.Err? && resp.code != 405 && resp.code != 409 ==> r.1.fault.message == resp.body
  {
    var req := Http.HttpRequest(Http.Put, MergeUrl(c.apiUrl, username, repoName, prNum),
                                Some(Obj(MergePayload(commitTitle, commitMessage, sha, mergeMethod))), None);
    if resp.code == 200 then (req, Ok(true))
    else if resp.code == 405 then (req, Err(Fault(405, "merge cannot be performed")))
    else if resp.code == 409 then (req, Err(Fault(409, "sha was provided and pull request head did not match")))
    else (req, Err(Fault(resp.code, resp.body)))
  }

  /** Without a merge method, `merge` asks for a plain merge (`$merge_method = 1`). */
  lemma MergeDefaultMethod(c: Client, resp: Http.HttpResponse, username: string, repoName: string, prNum: int,
                           commitTitle: string, commitMessage: Option<string>, sha: string)
    ensures Get(Merge(c, resp, username, repoName, prNum, commitTitle, commitMessage, sha).0.body.value.fields,
                "merge_method") == Some(Str("merge"))
  {
  }

  /**
   * Without the two trailing arguments, `create` sends a null body and lets
   * maintainers modify the branch (`$body = null`, `$maintainer_can_modify = true`).
   */
  lemma CreateDefaults(c: Client, resp: Http.HttpResponse, username: string, repoName: string, title: string,
                       head: string, base: string)
    ensures Get(Create(c, resp, username, repoName, 0, title, head, base).request.body.value.fields, "body") == Some(Null)
    ensures Get(Create(c, resp, username, repoName, 0, title, head, base).request.body.value.fields,
                "maintainer_can_modify") == Some(Bool(true))
  {
  }
}

=== FILE: signature.dfy ===
/**
 * The webhook signature gate shared by the event handler and the ingestion
 * queue: the `X-Hub-Signature` header is `<algo>=<digest>`, and a delivery is
 * accepted when `hash_hmac(algo, body, secret)` yields exactly that digest.
 *
 * The gate follows PHP 8 under `strict_types`: a missing header is `null`
 * passed to `explode`, and an algorithm `hash_hmac` does not know raises a
 * `ValueError`; both escape the gate with code 0.
 */
module Signature {
  import opened Common
  import opened PhpString

  /**
   * The hash functions, taken as uninterpreted inputs. `hmac` yields `None`
   * for an algorithm `hash_hmac` does not know.
   */
  datatype Primitives = Primitives(hmac: (string, string, string) -> Option<string>, md5: string -> string)

  /** `$secret ?? Env::get('CI_WEBHOOKS_TOKEN') ?? md5('khsci')`. */
  function Secret(explicit: Option<string>, envToken: Option<string>, prim: Primitives): string
  {
    if explicit.Some? then explicit.value
    else if envToken.Some? then envToken.value
    else prim.md5("khsci")
  }

  /**
   * `list($algo, $hash) = explode('=', $header, 2)` followed by
   * `$hash === hash_hmac($algo, $body, $secret)`. A header without `=` leaves
   * `$hash` null, which is never identical to a string or to `false`.
   */
  predicate Accepted(header: string, body: string, secret: string, prim: Primitives)
  {
    var parts := SplitFirst(header, '=');
    |parts| == 2 && prim.hmac(parts[0], body, secret) == Some(parts[1])
  }

  /** What the gate does with a delivery. */
  datatype GateResult =
    | Pass               // the handler runs
    | Reject             // `throw new Exception('', 402)`
    | Fail(fault: Fault) // an engine error thrown before the comparison

  /**
   * The gate of `__invoke` and `startGitHubServer`: a missing header fails
   * `explode`'s string parameter, an unknown algorithm fails `hash_hmac`,
   * and otherwise the digest after the first `=` is compared with the HMAC.
   */
  function Gate(header: Option<string>, body: string, secret: string, prim: Primitives): (g: GateResult)
    ensures g == Pass <==> header.Some? && Accepted(header.value, body, secret, prim)
    ensures g.Fail? <==> header.None? || prim.hmac(SplitFirst(header.value, '=')[0], body, secret).None?
    ensures g.Fail? ==> g.fault.code == 0
  {
    match header
    case None => Fail(EngineError("explode(): Argument #2 ($string) must be of type string, null given"))
    case Some(h) =>
      var parts := SplitFirst(h, '=');
      match prim.hmac(parts[0], body, secret)
      case None => Fail(EngineError("hash_hmac(): Argument #1 ($algo) must be a valid cryptographic hashing algorithm"))
      case Some(digest) => if |parts| == 2 && parts[1] == digest then Pass else Reject
  }

  /**
   * A header `algo=digest` (the algorithm being everything before the first
   * `=`) is accepted exactly when the HMAC of the body under the secret is
   * that digest.
   */
  lemma AcceptedIff(algo: string, digest: string, body: string, secret: string, prim: Primitives)
    requires '=' !in algo
    ensures Accepted(algo + "=" + digest, body, secret, prim) <==> prim.hmac(algo, body, secret) == Some(digest)
  {
    SplitFirstAt(algo, digest, '=');
  }

  /**
   * A header with no `=` at all never passes: the whole header is taken as
   * the algorithm, and the digest reads as null.
   */
  lemma RejectedWithoutSeparator(header: string, body: string, secret: string, prim: Primitives)
    requires '=' !in header
    ensures !Accepted(header, body, secret, prim)
    ensures prim.hmac(header, body, secret).Some? ==> Gate(Some(header), body, secret, prim) == Reject
    ensures prim.hmac(header, body, secret).None? ==> Gate(Some(header), body, secret, prim).Fail?
  {
    SplitFirstNone(header, '=');
  }

  /**
   * With a known algorithm, a header `algo=digest` passes on a matching
   * HMAC and is rejected with 402 on any other.
   */
  lemma GateKnownAlgo(algo: string, digest: string, body: string, secret: string, prim: Primitives)
    requires '=' !in algo && prim.hmac(algo, body, secret).Some?
    ensures Gate(Some(algo + "=" + digest), body, secret, prim) ==
      (if prim.hmac(algo, body, secret) == Some(digest) then Pass else Reject)
  {
    SplitFirstAt(algo, digest, '=');
  }
}

=== FILE: webhook_queue.dfy ===
/**
 * The ingestion queue: deliveries that pass the signature gate are pushed,
 * unprocessed, onto the Redis list `webhooks`; a consumer pops them, and
 * records each outcome on `webhooks_success` or `webhooks_error`.
 *
 * A Redis list is a `seq` whose index 0 is the left end: `lPush` prepends
 * and `rPop` removes the last element. That pairing makes the inbox FIFO.
 */
module WebhookQueue {
  import opened Common
  import opened PhpString
  import opened Signature

  /** The list keys: `$cache_key`, and the same with `_success` / `_error` appended. */
  const InboxKey := "webhooks"
  const SuccessKey := InboxKey + "_success"
  const ErrorKey := InboxKey + "_error"

  /**
   * A list element. `Triple` is `json_encode([$git_type, $type, $content])`,
   * kept as an opaque constructor; `Text` is any other string a consumer
   * hands back.
   */
  datatype Item = Triple(gitType: string, eventType: string, content: string) | Text(text: string)

  /** The three lists. */
  datatype Lists = Lists(inbox: seq<Item>, success: seq<Item>, error: seq<Item>)

  /** A `Webhooks` object: its (mutable) `$git_type`, and the Redis lists it writes. */
  datatype Server = Server(gitType: string, redis: Lists)

  /** An inbound request: the event header, the signature header and the raw body; a missing header is `None`. */
  datatype Incoming = Incoming(event: Option<string>, signature: Option<string>, body: string)

  /** `CI_WEBHOOKS_DEBUG` (read as a boolean) and `CI_WEBHOOKS_TOKEN`. */
  datatype QueueEnv = QueueEnv(debug: bool, webhooksToken: Option<string>)

  // -----------------------------------------------------------------------
  // Redis list primitives

  /** `LPUSH`: the new element goes to the left end; Redis replies with the new length. */
  function LPush(list: seq<Item>, x: Item): (r: (seq<Item>, nat))
    ensures |r.0| == |list| + 1 && r.0[0] == x && r.0[1..] == list
    ensures r.1 == |list| + 1
  {
    ([x] + list, |list| + 1)
  }

  /** `RPOP`: the right end, or `false` (here `None`) on an empty list. */
  function RPop(list: seq<Item>): (r: (Option<Item>, seq<Item>))
    ensures |list| == 0 ==> r == (None, list)
    ensures |list| > 0 ==> r.0 == Some(list[|list| - 1]) && r.1 + [list[|list| - 1]] == list
  {
    if |list| == 0 then (None, list) else (Some(list[|list| - 1]), list[..|list| - 1])
  }

  // -----------------------------------------------------------------------
  // The Webhooks operations

  /** `pushCache`: prepend the delivery's triple to `webhooks`. */
  function PushCache(s: Server, eventType: string, content: string): (r: (Server, nat))
    ensures r.0.gitType == s.gitType
    ensures r.0.redis.inbox == [Triple(s.gitType, eventType, content)] + s.redis.inbox
    ensures r.0.redis.success == s.redis.success && r.0.redis.error == s.redis.error
    ensures r.1 == |r.0.redis.inbox|
  {
    var (inbox, n) := LPush(s.redis.inbox, Triple(s.gitType, eventType, content));
    (s.(redis := s.redis.(inbox := inbox)), n)
  }

  /** `getCache`: pop from the opposite end of `webhooks`. */
  function GetCache(s: Server): (r: (Server, Option<Item>))
    ensures r.0.gitType == s.gitType
    ensures r.0.redis.success == s.redis.success && r.0.redis.error == s.redis.error
    ensures |s.redis.inbox| == 0 <==> r.1.None?
    ensures r.1.None? ==> r.0 == s
    ensures r.1.Some? ==> r.0.redis.inbox + [r.1.value] == s.redis.inbox
  {
    var (x, inbox) := RPop(s.redis.inbox);
    (s.(redis := s.redis.(inbox := inbox)), x)
  }

  /** `rollback`: push an item back onto the same end `pushCache` uses. */
  function Rollback(s: Server, x: Item): (r: (Server, nat))
    ensures r.0.gitType == s.gitType
    ensures r.0.redis.inbox == [x] + s.redis.inbox
    ensures r.0.redis.success == s.redis.success && r.0.redis.error == s.redis.error
    ensures r.1 == |r.0.redis.inbox|
  {
    var (inbox, n) := LPush(s.redis.inbox, x);
    (s.(redis := s.redis.(inbox := inbox)), n)
  }

  /** `pushSuccessCache`: only `webhooks_success` changes. */
  function PushSuccessCache(s: Server, x: Item): (r: (Server, nat))
    ensures r.0.gitType == s.gitType
    ensures r.0.redis.inbox == s.redis.inbox && r.0.redis.error == s.redis.error
    ensures r.0.redis.success == [x] + s.redis.success
    ensures r.1 == |r.0.redis.success|
  {
    var (success, n) := LPush(s.redis.success, x);
    (s.(redis := s.redis.(success := success)), n)
  }

  /** `pushErrorCache`: only `webhooks_error` changes. */
  function PushErrorCache(s: Server, x: Item): (r: (Server, nat))
    ensures r.0.gitType == s.gitType
    ensures r.0.redis.inbox == s.redis.inbox && r.0.redis.success == s.redis.success
    ensures r.0.redis.error == [x] + s.redis.error
    ensures r.1 == |r.0.redis.error|
  {
    var (error, n) := LPush(s.redis.error, x);
    (s.(redis := s.redis.(error := error)), n)
  }

  /** `getSuccessCache`: a stub that returns an empty array; the list is not read. */
  function GetSuccessCache(s: Server): (r: (Server, seq<Item>))
    ensures r.0 == s && |r.1| == 0
  {
    (s, [])
  }

  /** `getErrorCache`: a stub that returns an empty array; the list is not read. */
  function GetErrorCache(s: Server): (r: (Server, seq<Item>))
    ensures r.0 == s && |r.1| == 0
  {
    (s, [])
  }

  /**
   * `startGitHubServer`: with the debug flag set, enqueue without looking at
   * the signature; otherwise enqueue only when the signature header matches
   * the HMAC of the body under the argument secret, else `CI_WEBHOOKS_TOKEN`,
   * else `md5('khsci')`. A mismatch throws 402; a missing header or an
   * unknown algorithm throws an engine error; the queue stays as it was.
   */
  function StartGitHubServer(s: Server, env: QueueEnv, prim: Primitives, req: Incoming, secret: Option<string>)
    : (r: (Server, Result<nat>))
    ensures r.0.gitType == s.gitType
    ensures r.0.redis.success == s.redis.success && r.0.redis.error == s.redis.error
    ensures r.1.Ok? <==>
      env.debug || (req.signature.Some? && Accepted(req.signature.value, req.body, Secret(secret, env.webhooksToken, prim), prim))
    ensures r.1.Ok? ==>
      r.0.redis.inbox == [Triple(s.gitType, req.event.GetOr("undefined"), req.body)] + s.redis.inbox
    ensures r.1.Ok? ==> r.1.value == |r.0.redis.inbox|
    ensures r.1.Err? ==> r.0 == s
    ensures r.1.Err? ==>
      (r.1.fault.code == 402 <==> Gate(req.signature, req.body, Secret(secret, env.webhooksToken, prim), prim) == Reject)
    ensures !env.debug && req.signature.None? ==> r.1.Err? && r.1.fault.code == 0
  {
    var g := Gate(req.signature, req.body, Secret(secret, env.webhooksToken, prim), prim);
    if env.debug || g == Pass then
      var pushed := PushCache(s, req.event.GetOr("undefined"), req.body);
      (pushed.0, Ok(pushed.1))
    else if g == Reject then (s, Err(Fault(402, "")))
    else (s, Err(g.fault))
  }

  /**
   * `startGitHubAppServer`: switch the object's `$git_type` to `github_app`
   * for good, then run `startGitHubServer`.
   */
  function StartGitHubAppServer(s: Server, env: QueueEnv, prim: Primitives, req: Incoming, secret: Option<string>)
    : (r: (Server, Result<nat>))
    ensures r.0.gitType == "github_app"
    ensures r.0.redis.success == s.redis.success && r.0.redis.error == s.redis.error
    ensures r.1.Ok? <==>
      env.debug || (req.signature.Some? && Accepted(req.signature.value, req.body, Secret(secret, env.webhooksToken, prim), prim))
    ensures r.1.Ok? ==>
      r.0.redis.inbox == [Triple("github_app", req.event.GetOr("undefined"), req.body)] + s.redis.inbox
    ensures r.1.Ok? ==> r.1.value == |r.0.redis.inbox|
    ensures r.1.Err? ==> r.0.redis == s.redis
    ensures r.1.Err? ==>
      (r.1.fault.code == 402 <==> Gate(req.signature, req.body, Secret(secret, env.webhooksToken, prim), prim) == Reject)
    ensures !env.debug && req.signature.None? ==> r.1.Err? && r.1.fault.code == 0
  {
    StartGitHubServer(s.(gitType := "github_app"), env, prim, req, secret)
  }

  /** `startCodingServer`: a stub that returns an empty array and enqueues nothing. */
  function StartCodingServer(s: Server, secret: Option<string>): (r: (Server, seq<Item>))
    ensures r.0 == s && |r.1| == 0
  {
    (s, [])
  }

  /** `startGiteeServer`: a stub that returns an empty array and enqueues nothing. */
  function StartGiteeServer(s: Server, secret: Option<string>): (r: (Server, seq<Item>))
    ensures r.0 == s && |r.1| == 0
  {
    (s, [])
  }

  // -----------------------------------------------------------------------
  // Ordering

  /** The items successive `rPop`s return until the list is empty. */
  function Drain(list: seq<Item>): seq<Item>
  {
    if |list| == 0 then [] else [list[|list| - 1]] + Drain(list[..|list| - 1])
  }

  /** `lPush` of every item of `xs`, in order. */
  function PushAll(list: seq<Item>, xs: seq<Item>): seq<Item>
    decreases |xs|
  {
    if |xs| == 0 then list else LPush(PushAll(list, xs[..|xs| - 1]), xs[|xs| - 1]).0
  }

  /** An item pushed on the left comes out after everything already queued. */
  lemma {:induction false} DrainAfterPush(list: seq<Item>, x: Item)
    ensures Drain([x] + list) == Drain(list) + [x]
    decreases |list|
  {
    if |list| > 0 {
      var l := [x] + list;
      assert l[..|l| - 1] == [x] + list[..|list| - 1];
      DrainAfterPush(list[..|list| - 1], x);
    }
  }

  /** Items come out in the order they were pushed, after those already queued. */
  lemma {:induction false} FifoOrder(list: seq<Item>, xs: seq<Item>)
    ensures Drain(PushAll(list, xs)) == Drain(list) + xs
    decreases |xs|
  {
    if |xs| > 0 {
      var init := xs[..|xs| - 1];
      FifoOrder(list, init);
      DrainAfterPush(PushAll(list, init), xs[|xs| - 1]);
      assert init + [xs[|xs| - 1]] == xs;
    }
  }

  /** `getCache` returns the first item of the drain order and leaves the rest in order. */
  lemma GetCacheTakesOldest(s: Server)
    ensures |s.redis.inbox| > 0 ==>
      GetCache(s).1 == Some(Drain(s.redis.inbox)[0]) &&
      Drain(GetCache(s).0.redis.inbox) == Drain(s.redis.inbox)[1..]
  {
  }

  /**
   * A delivery the App endpoint accepts is popped, tagged `github_app`, only
   * after every item already queued.
   */
  lemma AppDeliveryDrainsLast(s: Server, env: QueueEnv, prim: Primitives, req: Incoming, secret: Option<string>)
    requires StartGitHubAppServer(s, env, prim, req, secret).1.Ok?
    ensures Drain(StartGitHubAppServer(s, env, prim, req, secret).0.redis.inbox) ==
      Drain(s.redis.inbox) + [Triple("github_app", req.event.GetOr("undefined"), req.body)]
  {
    DrainAfterPush(s.redis.inbox, Triple("github_app", req.event.GetOr("undefined"), req.body));
  }

  /** A rolled-back item is popped only after every item already queued. */
  lemma RollbackGoesLast(s: Server, x: Item)
    ensures Drain(Rollback(s, x).0.redis.inbox) == Drain(s.redis.inbox) + [x]
  {
    DrainAfterPush(s.redis.inbox, x);
  }

  /**
   * Pushing i1, i2, i3 onto an empty inbox, popping twice and rolling back
   * the first item popped leaves the inbox to yield i3 and then i1.
   */
  lemma RollbackScenario(s: Server, i1: Item, i2: Item, i3: Item)
    requires s.redis.inbox == PushAll([], [i1, i2, i3])
    ensures
      var (s2, a) := GetCache(s);
      var (s3, b) := GetCache(s2);
      a == Some(i1) && b == Some(i2) && Drain(Rollback(s3, i1).0.redis.inbox) == [i3, i1]
  {
    assert [i1, i2, i3][..2] == [i1, i2];
    assert [i1, i2][..1] == [i1];
    assert [i1][..0] == [];
    assert PushAll([], [i1]) == [i1];
    assert PushAll([], [i1, i2]) == [i2, i1];
    assert s.redis.inbox == [i3, i2, i1];
    var (s2, a) := GetCache(s);
    var (s3, b) := GetCache(s2);
    assert s3.redis.inbox == [i3];
    RollbackGoesLast(s3, i1);
  }
}
